=== FILE: README.md ===
# Resilient post scraper — a Dafny model

This project models the ingestion core of a small scraper that collects the
posts of one account from a Mastodon-style web API, through a real browser
session, into a two-column `author,text` progress file. It also models the
companion converter that rewrites another author's posts into the same
line format. The model covers:

- **Normalizer** (`clean_html`): the non-greedy tag remover `<.*?>`, where
  `.` does not match a newline. After it, newlines become spaces, carriage
  returns are deleted, commas become semicolons, and Python `strip()` trims
  the result.
- **Gatekeeper**: the checkpoint wait loop. It polls the title and three DOM
  markers until the timeline shows or 600 seconds have passed.
- **Batch**: the per-entry loop that the listener and the paginator share.
  It cleans each entry's content, keeps the non-empty rows, and moves the
  cursor over every entry. A malformed entry raises midway.
- **ProgressStore**: the progress file (rows appended as `author,text`
  lines, written without CSV quoting) and the cursor file (overwritten, read back with
  `strip()`).
- **Listener** (`handle_response`): passive capture of successful
  account-timeline responses while the page loads.
- **Paginator**: the active fetch loop. It builds the request URL, handles
  status 200 / 429 / 403 / other, doubles the backoff up to a cap, counts
  consecutive errors, reloads past the threshold, and stops at the target or
  at an empty page.
- **Session**: one whole run. The cursor file is read at start, the listener
  captures while the page loads, and then the paginator takes over, with the
  listener's rows counting toward the target.
- **Convert** (`transform_musk_final_fix`): each non-null `fullText` cell
  becomes `Musk,<text>`. Line breaks become spaces, and every comma not
  directly preceded by `Musk` becomes `;`.

The browser, the network, the clock and the files are outside the model.
Each poll of the page becomes a `Poll` value. Each fetch outcome becomes an
`Outcome`: a status and a decoded body, or an exception. Each network
response the page receives becomes a `Response`. Elapsed time is a whole
number of seconds. The two files become a `Disk` value. Every operation is a
pure function from these inputs to its result and its effects, which are the
rows appended, the cursor written and whether the page was reloaded.

Python's falsy values (`None`, a missing key, `""`) behave the same at every
place the code tests them, so an absent id or content is represented by the
empty string. A JSON body is `Null`, a `List` of entries, or some other value
(`NonList`) that is truthy or not. An entry is either a `Post(id, content)` or
`Malformed`. A malformed entry is one that makes `entry.get(...)` or
`clean_html` raise: a non-object entry, or a non-string truthy content.

Three behaviours of the code are worth knowing, because one might expect
otherwise:

- Cleaning is not idempotent. `clean_html("<\n>")` is `"< >"`, and cleaning
  that again gives `""`. `Normalizer.CleanHtmlIdempotentIff` gives the exact
  condition under which it is idempotent.
- The cursor is not kept monotonic. It becomes the id of the last entry of
  each page, whatever that id is. A malformed entry can move it past posts
  that were never saved.
- An exception on the Python side of a fetch does not increment the
  consecutive-error counter. Only a status other than 200 and 429 does,
  including the status 0 that a failed browser `fetch` reports.

## Model

| member | source | states |
|---|---|---|
| Normalizer.TagEnd | data/scrape.py:17-18 | a tag opened by `<` closes at the first `>` with no newline before it (the shortest match); with a newline or the end first there is no match |
| Normalizer.StripTagsLeavesNoTag | data/scrape.py:17-18 | after the substitution no `<` is followed by a `>` on the same line, so no further match is possible |
| Normalizer.StripTagsFixedIff | data/scrape.py:17-18 | the substitution leaves a text unchanged exactly when it contains no `<...>` span without a newline |
| Normalizer.StripTagsKeepsNewlines | data/scrape.py:17-18 | tag removal never deletes a newline, because `.` does not match one |
| Normalizer.StripTags | data/scrape.py:17-18 | tag removal only deletes: the result is no longer and holds no character the input lacks |
| Normalizer.StripTagsPlain | data/scrape.py:16-17 | text before the first `<` is kept unchanged, and matching resumes right after it |
| Normalizer.StripTagsSpan | data/scrape.py:16-17 | a `<...>` span with no `>` or newline inside is deleted whole, and nothing after it is touched except by later matches |
| Normalizer.StripTagsKeepsOpen | data/scrape.py:16-17 | a `<` with no `>` before the next newline or the end is kept, and matching resumes at the next character |
| Normalizer.FlattenDelims | data/scrape.py:19 | after the three replacements no newline, carriage return or comma is left, and the text is no longer |
| Normalizer.FlattenDelimsChar | data/scrape.py:19 | a single character: `\n` becomes a space, `\r` is deleted rather than spaced, `,` becomes `;`, anything else stays |
| Normalizer.FlattenDelimsAppend | data/scrape.py:19 | the replacement chain distributes over concatenation |
| Normalizer.FlattenDelimsEach | data/scrape.py:19 | the chain equals the independent character-by-character rewrite, so every character is treated as in the single-character case |
| Normalizer.CleanHtml | data/scrape.py:15-19 | a cleaned text has no newline, carriage return or comma, and no leading or trailing whitespace; it is no longer than the input; an empty input gives the empty string; otherwise it is a window of the tag-stripped, flattened text with only whitespace cut from either side |
| Text.Strip | data/scrape.py:19 | `strip()` keeps the window from the first to the last non-whitespace character, cutting only whitespace on either side |
| Normalizer.CleanHtmlIdempotentIff | data/scrape.py:15-19 | cleaning twice equals cleaning once exactly when the cleaned text contains no `<...>` span |
| Normalizer.CleanHtmlNotIdempotent | data/scrape.py:17-19 | `<\n>` cleans to `< >`, which cleans to the empty string: cleaning is not a fixed point |
| Normalizer.CleanTextUnchanged | data/scrape.py:15-19 | a text without tags, delimiters or edge whitespace is left exactly as it is |
| Scenarios.CommaNewlineBetweenWords | data/scrape.py:17-19 | two plain words joined by a comma and a newline clean to the words joined by `; ` |
| Scenarios.HelloWorldLine | data/scrape.py:19 | `Hello,\nworld` is saved as the progress line `Trump,Hello; world` |
| Gatekeeper.AwaitTimeline | data/scrape.py:107-132 | the wait ends at the first poll that is ready, or else at the first one strictly past 600 seconds; readiness is checked before the clock; every earlier poll was neither |
| Gatekeeper.IsReady | data/scrape.py:114-124 | the break condition: no challenge marker in the title, and a feed, article or header marker or the account name in the title |
| Gatekeeper.ChallengeNeverReady | data/scrape.py:114-122 | a challenge title blocks detection whatever DOM markers are present |
| Gatekeeper.AccountTitleReady | data/scrape.py:114-122 | without a challenge title, the account name in the title is enough |
| Gatekeeper.MarkerReady | data/scrape.py:114-122 | without a challenge title, a feed, an article or a header marker is enough |
| Gatekeeper.NotReadyShowsNothing | data/scrape.py:114-122 | without a challenge title, a page that is not ready has no marker and no account name in its title |
| Gatekeeper.ChallengeBlocksDetection | data/scrape.py:110-132 | while every poll shows a challenge title the wait can only time out, never detect the timeline |
| Gatekeeper.InterstitialTitle | data/scrape.py:114-122 | the interstitial title with every DOM marker present is not ready, even though it names the account |
| Gatekeeper.ProfileTitle | data/scrape.py:114-122 | the profile's own title alone is ready |
| Batch.RowOf | data/scrape.py:74-76 | an entry gives one clean `Trump` row when its cleaned content is non-empty, and none otherwise |
| Batch.ScanEntries | data/scrape.py:178-183 | rows are clean and no more than the entries; the scan completes exactly when every entry is well formed; complete, the cursor is the last entry's id; otherwise it is the id of the entry before the first malformed one |
| Batch.ScanConcat | data/scrape.py:179-183 | scanning two well-formed pages one after the other gives the same rows and cursor as scanning them joined |
| ProgressStore.LoadCursor | data/scrape.py:25-28 | the resumed cursor is the file's content with exactly the surrounding whitespace cut off, has no edge whitespace, and is empty when the file does not exist |
| ProgressStore.RenderRowFields | data/scrape.py:186-188 | a clean row renders as one line with exactly one comma |
| ProgressStore.ParseRenderRow | data/scrape.py:186-188 | splitting a rendered clean row at its comma gives back the row |
| ProgressStore.ProgressRoundTrip | data/scrape.py:186-188 | the progress file reads back line by line as the appended rows |
| ProgressStore.ProgressLineCount | data/scrape.py:186-188 | the progress file holds one newline per row |
| Listener.IsTimelineResponse | data/scrape.py:58 | the listener's filter: the URL names the accounts API and statuses, and the status is 200 |
| Listener.HandleResponse | data/scrape.py:56-94 | only a successful timeline response with a non-empty list writes anything; what it appends is the scan of an all-well-formed page; the cursor file gets the last id only after a non-empty batch |
| Listener.Persist | data/scrape.py:80-90 | the batch is appended to the progress file and the cursor file is overwritten only when there is a cursor |
| Listener.Listen | data/scrape.py:56-95 | the progress file grows by exactly the captured rows, all clean; with no timeline responses nothing changes |
| Listener.ListenSingle | data/scrape.py:56-90 | one response is handled by `handle_response` and its capture persisted: its rows appended, its cursor written if any |
| Listener.ListenAppend | data/scrape.py:56-90 | listening to two stretches of responses is listening to the first, then to the second from the files the first left, with the rows in arrival order |
| Listener.NonListIgnored | data/scrape.py:65-68 | a body that is not a list is ignored |
| Listener.WellFormedPageCaptured | data/scrape.py:70-90 | a well-formed page with some content is appended in full, and the cursor is written exactly when the last id is non-empty |
| Paginator.Start | data/scrape.py:25-28 | a run starts within the loop's bounds, from the stripped cursor file, with no errors and the listener's rows already counted |
| Paginator.RequestUrl | data/scrape.py:142-144 | every request starts with the account's 40-post statuses query; an empty cursor adds nothing, a non-empty one adds exactly `&max_id=` and the cursor |
| Paginator.Recover | data/scrape.py:220-226 | after an answered fetch, more than 5 errors reload the page and reset the count to 0; otherwise nothing changes; the count is then at most 5 |
| Paginator.PageStep | data/scrape.py:170-199 | a 200 answer: an empty or null body ends the loop; a well-formed page saves its rows, moves the cursor to the last id and resets backoff and errors; a malformed entry raises after `max_id` moved over the entries before it, saving nothing; a truthy non-list body raises before moving anything |
| Paginator.Step | data/scrape.py:140-230 | one iteration: an empty 200 ends the loop; a well-formed page saves its scan, moves the cursor to the last id, and resets backoff to 5 and errors to 0; a 429 doubles the backoff up to 60; any other status counts an error and reloads on the sixth; an entry that raises leaves the cursor at the entry before it and saves nothing; an exception raised by the fetch call changes nothing; the bounds are kept |
| Paginator.Run | data/scrape.py:140-230 | the loop keeps its bounds; the count equals the rows saved; it stops at the target exactly when the count reached it; the first request uses the current cursor; every cursor written is non-empty |
| Paginator.EmptyPageEndsRun | data/scrape.py:170-175 | an empty or null 200 body ends the run with nothing saved and nothing moved |
| Paginator.BackoffGrowth | data/scrape.py:204-207 | after n consecutive 429s the backoff is min(b * 2^n, 60), the same page was requested n times, and nothing was saved |
| Paginator.ErrorCycle | data/scrape.py:209-226 | after n consecutive errors the counter is (e + n) mod 6, the page was reloaded (e + n) div 6 times, and nothing else moved |
| Paginator.ForbiddenThenPage | data/scrape.py:193-194 | three 403s then a good page leave the counter at 0 and the backoff at 5 |
| Paginator.OnePageRun | data/scrape.py:140-199 | one well-formed page below the target: its scan is saved, it was requested once from the current cursor, the cursor file is written with the page's last id exactly when that id is non-empty, and the run ends on that id |
| Paginator.TwoPagesRun | data/scrape.py:140-199 | two well-formed pages, the first leaving the count below the target: both pages' rows are saved in page order and the second request resumes from the first page's last id; the cursor file is written with each page's non-empty last id, in page order, and the run ends on the second page's last id |
| Paginator.UrlHasMaxIdIff | data/scrape.py:142-144 | for an account id without `&`, a request names `max_id` exactly when the cursor is non-empty |
| Paginator.MalformedEntryAdvancesCursor | data/scrape.py:178-183 | a good entry followed by a malformed one moves the cursor past the good one without saving it or writing the cursor file |
| Session.Scrape | data/scrape.py:21-232 | the captured rows are the listener's over the page load; once the wait ends, the paginator runs from the startup cursor with those rows counted, and the files end as the listener left them with the paginator's trace applied; the progress file ends as the listener's rows then the paginator's; the paginator's count includes the listener's rows; its first request resumes from the cursor file as read at startup; if the listener already met the target, no request is made |
| Session.ApplyTrace | data/scrape.py:186-199 | the paginator's rows are appended and the cursor file holds its last write |
| Session.RequestUrlInjective | data/scrape.py:142-144 | distinct cursors give distinct requests |
| Session.ListenerCursorNotUsed | data/scrape.py:25-28 | with one page-load response below the target, a cursor the listener wrote that differs from the startup cursor does not reach the paginator's first request (longer page loads follow from `Session.Scrape` with `Session.RequestUrlInjective`) |
| Session.CursorFileRoundTrip | data/scrape.py:26-28 | a cursor without edge whitespace, saved with any whitespace around it, is read back as exactly that cursor on restart |
| Session.CrashDuplicatesBatch | data/scrape.py:186-199 | a crash between appending a batch and writing the cursor repeats the same request on restart, and the same batch is appended twice |
| Convert.FlattenBreaks | data/convert.py:23 | every newline and carriage return becomes a space, and nothing else changes |
| Convert.Substitute | data/convert.py:30 | the left-to-right scan substitutes at each position exactly what the lookbehind at that position of the whole line decides |
| Convert.LookbehindPositions | data/convert.py:30 | the scan's lookbehind looks into the original subject, never into its output |
| Convert.SubstituteKeepsName | data/convert.py:30 | the substitution only ever rewrites commas, so a position follows `Musk` after it exactly when it did before |
| Convert.TransformLine | data/convert.py:23-30 | a line is 5 characters longer than the text, starts with `Musk,`, has no line break, and each of its commas directly follows `Musk` |
| Convert.TransformLineChars | data/convert.py:23-30 | position by position, the text follows the prefix with breaks made spaces and unprotected commas made `;`; nothing else differs |
| Convert.CommaAfterNameSurvives | data/convert.py:30 | a comma in the text directly after `Musk` stays a comma |
| Convert.ProtectedTextKept | data/convert.py:23-30 | a one-line text whose every comma follows `Musk` appears unchanged after the prefix |
| Convert.MentionKeepsComma | data/convert.py:30 | `Elon Musk, hi` becomes `Musk,Elon Musk, hi`, a line with two commas |
| Convert.Present | data/convert.py:20 | `dropna` keeps no more cells than it is given, and exactly the texts of the present ones |
| Convert.PresentSingle | data/convert.py:20 | a missing cell contributes nothing and a present one its text |
| Convert.PresentAppend | data/convert.py:20 | `dropna` distributes over concatenation, so it keeps the present cells in order and with multiplicity |
| Convert.Transform | data/convert.py:14-16 | nothing is produced when the `fullText` column is missing |
| Convert.TransformLines | data/convert.py:20-37 | the output reads back line by line as the transformed non-null cells in input order, with exactly one newline per non-null cell |

## Left out

- The browser: launching it, the persistent profile, navigation, page titles and DOM queries, `page.evaluate`, the mouse move, and the page reload. Each is an input value or a reported effect.
- Time: every `sleep`, the random jitter, the cooldown lengths and the wall clock. The wait loop receives each poll's elapsed seconds as a whole number; the source uses a float.
- The request itself: its headers, the JSON decoding in the page, and the exact shape of `response_data`. A fetch outcome is a status with a decoded body, or an exception.
- The regular-expression engine: `<.*?>` and `(?<!Musk),` are modelled directly by their matching behaviour.
- Python `str` on a non-string cell, and `pandas`: `read_csv` (including dropped bad lines and the type a column gets), `DataFrame.to_csv` quoting, and file encodings.
- ProgressStore.RenderRow: writes every row bare as `author,text`. `clean_html` removes commas and line breaks but keeps `"`, and `to_csv` writes a field that holds a `"` inside quotes with each `"` doubled. For such rows the real progress line differs from the modelled one, so `ProgressStore.ProgressRoundTrip` describes the file as the model writes it. For rows without `"` the two agree.
- The listener running concurrently with the paginator. The model runs the listener only over the responses seen before the handoff. In the program, the paginator's fetches go through the same page, so each page it fetches successfully also passes the listener's filter: the URL contains `api/v1/accounts` and `statuses`, and the status is 200. Such a page is therefore appended to the progress file and counted in `all_truths` twice, once by the listener and once by the paginator, and the cursor file is written by both. The file layout that `Session.Scrape` states (listener rows, then paginator rows, each once) does not hold for the real program.
- The cursor file being written while the listener runs in the same process: the model applies writes in order.
- A failed write of the progress file or the cursor file. In the model `ProgressStore.Append` and `ProgressStore.SaveCursor` always succeed, and `Outcome` has no case for a write that raises. In the paginator an exception from `to_csv` or from the cursor write is caught by the loop's `except`. By then `max_id` has already moved past the page. A failed `to_csv` therefore skips that batch for good: it is neither saved nor counted. A failed cursor write leaves the rows saved and counted, and the cursor file unchanged. In the listener both exceptions are swallowed, with the same two results for that response.
- The outer `try`/`except` of the converter. It reports any failure and produces no output. Only the missing-column case is modelled.
- Paginator.Run: models as many iterations as fetch outcomes are given. The source has no iteration cap and never terminates while every fetch keeps failing.
- The training, tokenizer, prediction and dashboard code, which are not part of this model.

=== FILE: batch.dfy ===
/**
 The per-entry loop both capture paths run over a page of posts: clean each
 entry's content, keep the non-empty ones as rows, and move the cursor to
 each entry's id in turn.
 */
module Batch {
  import opened Text
  import opened Normalizer

  /** The author label every captured row carries. */
  const Author: string := "Trump"

  /** One element of a page of posts. */
  datatype Item =
    | Post(id: string, content: string)  // an object entry; "" stands for a missing or null field
    | Malformed                          // an entry on which `entry.get(...)` or `clean_html` raises

  /** A page body as decoded from JSON. */
  datatype Json =
    | Null
    | List(items: seq<Item>)
    | NonList(truthy: bool)  // an object, string, number or boolean, with its Python truth value

  /** Python's `not data` for a decoded body. */
  predicate Falsy(body: Json)
  {
    match body
    case Null => true
    case List(items) => items == []
    case NonList(truthy) => !truthy
  }

  /** A corpus record: the author label and the normalised text. */
  datatype Row = Row(author: string, text: string)

  /** A row as the capture paths produce it: the author label and non-empty cleaned text. */
  predicate CleanRow(row: Row)
  {
    && row.author == Author
    && row.text != []
    && ',' !in row.text && '\n' !in row.text && '\r' !in row.text
    && NoEdgeSpace(row.text)
  }

  predicate AllClean(rows: seq<Row>)
  {
    forall k :: 0 <= k < |rows| ==> CleanRow(rows[k])
  }

  /** The row an entry with this content contributes: none when it cleans to "". */
  function RowOf(content: string): (rows: seq<Row>)
    ensures AllClean(rows) && |rows| <= 1
    ensures rows == [] <==> CleanHtml(content) == []
  {
    var text := CleanHtml(content);
    if text == [] then [] else [Row(Author, text)]
  }

  lemma AllCleanConcat(a: seq<Row>, b: seq<Row>)
    requires AllClean(a) && AllClean(b)
    ensures AllClean(a + b)
  {
    forall k | 0 <= k < |a + b| ensures CleanRow((a + b)[k]) {
      if k < |a| { assert (a + b)[k] == a[k]; } else { assert (a + b)[k] == b[k - |a|]; }
    }
  }

  /** `k` is the position of the first malformed entry. */
  predicate FirstMalformed(items: seq<Item>, k: int)
  {
    0 <= k < |items| && items[k].Malformed? && forall m :: 0 <= m < k ==> items[m].Post?
  }

  /** There is only one first malformed entry. */
  lemma FirstMalformedUnique(items: seq<Item>, k1: int, k2: int)
    requires FirstMalformed(items, k1) && FirstMalformed(items, k2)
    ensures k1 == k2
  {
  }

  /** Rows collected, the cursor after the last entry processed, and whether the loop got through. */
  datatype Scan = Scan(rows: seq<Row>, cursor: string, complete: bool)

  /**
   The `for entry in data` loop, starting from `cursor`. The cursor follows
   every processed entry, including one whose content cleans to "". The loop
   stops with an exception at the first malformed entry, after the cursor has
   passed the entries before it.
   */
  function ScanEntries(items: seq<Item>, cursor: string): (r: Scan)
    ensures AllClean(r.rows)
    ensures |r.rows| <= |items|
    ensures r.complete <==> forall k :: 0 <= k < |items| ==> items[k].Post?
    ensures r.complete && items != [] ==> r.cursor == items[|items| - 1].id
    ensures items == [] ==> r == Scan([], cursor, true)
    ensures !r.complete ==>
              exists k :: FirstMalformed(items, k) && r.cursor == (if k == 0 then cursor else items[k - 1].id)
  {
    if items == [] then Scan([], cursor, true)
    else match items[0]
      case Malformed => assert FirstMalformed(items, 0); Scan([], cursor, false)
      case Post(id, content) =>
        var rest := ScanEntries(items[1..], id);
        ScanTail(items, cursor, rest);
        Scan(RowOf(content) + rest.rows, rest.cursor, rest.complete)
  }

  lemma ScanTail(items: seq<Item>, cursor: string, rest: Scan)
    requires items != [] && items[0].Post? && rest == ScanEntries(items[1..], items[0].id)
    ensures rest.complete <==> forall k :: 0 <= k < |items| ==> items[k].Post?
    ensures !rest.complete ==>
              exists k :: FirstMalformed(items, k) && rest.cursor == (if k == 0 then cursor else items[k - 1].id)
    ensures rest.complete ==> rest.cursor == items[|items| - 1].id
  {
    if !rest.complete {
      var k :| FirstMalformed(items[1..], k) && rest.cursor == (if k == 0 then items[0].id else items[1..][k - 1].id);
      assert FirstMalformed(items, k + 1);
    }
    if rest.complete {
      assert forall k :: 1 <= k < |items| ==> items[k] == items[1..][k - 1];
    } else {
      var k :| FirstMalformed(items[1..], k);
      assert items[k + 1] == items[1..][k];
    }
  }

  lemma ConcatAssoc<T>(x: seq<T>, y: seq<T>, z: seq<T>)
    ensures x + (y + z) == (x + y) + z
  {
  }

  lemma ScanCons(items: seq<Item>, cursor: string)
    requires items != [] && items[0].Post?
    ensures var rest := ScanEntries(items[1..], items[0].id);
            ScanEntries(items, cursor) == Scan(RowOf(items[0].content) + rest.rows, rest.cursor, rest.complete)
  {
  }

  /** One well-formed entry: a row iff its content cleans to non-empty text, and the cursor takes its id. */
  lemma ScanSingle(id: string, content: string, cursor: string)
    ensures ScanEntries([Post(id, content)], cursor)
         == Scan(if CleanHtml(content) == [] then [] else [Row(Author, CleanHtml(content))], id, true)
  {
    assert [Post(id, content)][1..] == [];
    assert ScanEntries([], id) == Scan([], id, true);
  }

  /**
   Scanning a page is scanning its parts one after the other: the rows
   concatenate and the cursor is handed on. With `ScanSingle` this pins the
   rows down to the cleaned non-empty contents, in page order.
   */
  lemma {:induction false} ScanConcat(a: seq<Item>, b: seq<Item>, cursor: string)
    requires forall k :: 0 <= k < |a| ==> a[k].Post?
    ensures var sa := ScanEntries(a, cursor);
            var sb := ScanEntries(b, sa.cursor);
            ScanEntries(a + b, cursor) == Scan(sa.rows + sb.rows, sb.cursor, sb.complete)
  {
    if a == [] {
      assert a + b == b;
    } else {
      var id, content := a[0].id, a[0].content;
      assert (a + b)[0] == a[0];
      assert (a + b)[1..] == a[1..] + b;
      var tailA := ScanEntries(a[1..], id);
      var sb := ScanEntries(b, tailA.cursor);
      ScanConcat(a[1..], b, id);
      var head := RowOf(content);
      var sa := ScanEntries(a, cursor);
      ScanCons(a, cursor);
      assert sa == Scan(head + tailA.rows, tailA.cursor, tailA.complete);
      var sab := ScanEntries(a + b, cursor);
      var mid := ScanEntries(a[1..] + b, id);
      ScanCons(a + b, cursor);
      assert sab == Scan(head + mid.rows, mid.cursor, mid.complete);
      assert mid == Scan(tailA.rows + sb.rows, sb.cursor, sb.complete);
      ConcatAssoc(head, tailA.rows, sb.rows);
    }
  }
}

=== FILE: convert.dfy ===
/**
 The companion converter `transform_musk_final_fix`: every non-null
 `fullText` cell of a posts table becomes one line `Musk,<text>`, with line
 breaks flattened to spaces and every comma not directly after `Musk`
 turned into a semicolon, so that only the author's comma separates fields.
 */
module Convert {
  import opened Wrappers
  import opened Text

  /** The author name the lookbehind protects. */
  const Name: string := "Musk"

  /** Line breaks inside a post become spaces (both `\n` and `\r`). */
  function FlattenBreaks(s: string): (r: string)
    ensures |r| == |s|
    ensures forall i :: 0 <= i < |s| ==> r[i] == (if s[i] == '\n' || s[i] == '\r' then ' ' else s[i])
  {
    ReplaceChar(ReplaceChar(s, '\n', ' '), '\r', ' ')
  }

  /** The four characters of `s` just before position `i` spell the author name. */
  predicate FollowsName(s: string, i: int)
  {
    |Name| <= i <= |s|
    && s[i - 4] == Name[0] && s[i - 3] == Name[1] && s[i - 2] == Name[2] && s[i - 1] == Name[3]
  }

  /** What the substitution leaves at position `i` of `s`: the lookbehind `(?<!Musk)` protects a comma after the name. */
  function SubstitutedAt(s: string, i: int): char
    requires 0 <= i < |s|
  {
    if s[i] == ',' && !FollowsName(s, i) then ';' else s[i]
  }

  /**
   The scan `re.sub(r'(?<!Musk),', ';', s)` performs from position `k` on,
   carrying the last four characters of the subject it has passed (the
   lookbehind reads the subject, never the output built so far).
   */
  function Lookbehind(s: string, k: nat, behind: string): (r: string)
    requires k <= |s|
    ensures |r| == |s| - k
    decreases |s| - k
  {
    if k == |s| then []
    else
      var c := if s[k] == ',' && behind != Name then ';' else s[k];
      [c] + Lookbehind(s, k + 1, Window(behind, s[k]))
  }

  /** The last (up to) four characters after reading `c`. */
  function Window(behind: string, c: char): string
  {
    if |behind| < |Name| then behind + [c] else behind[1..] + [c]
  }

  /** `behind` holds the (up to) four characters before position `k`. */
  predicate Behind(s: string, k: int, behind: string)
  {
    0 <= k <= |s| && |behind| == (if k < |Name| then k else |Name|)
    && forall m :: 0 <= m < |behind| ==> behind[m] == s[k - |behind| + m]
  }

  lemma WindowMoves(s: string, k: int, behind: string)
    requires Behind(s, k, behind) && k < |s|
    ensures Behind(s, k + 1, Window(behind, s[k]))
  {
  }

  lemma BehindName(s: string, k: int, behind: string)
    requires Behind(s, k, behind)
    ensures behind == Name <==> FollowsName(s, k)
  {
    if FollowsName(s, k) {
      assert behind[0] == Name[0] && behind[1] == Name[1] && behind[2] == Name[2] && behind[3] == Name[3];
    }
  }

  /** The scan substitutes each position exactly as the lookbehind at that position says. */
  lemma {:induction false} LookbehindPositions(s: string, k: nat, behind: string)
    requires Behind(s, k, behind)
    ensures forall i :: k <= i < |s| ==> Lookbehind(s, k, behind)[i - k] == SubstitutedAt(s, i)
    decreases |s| - k
  {
    if k < |s| {
      var next := Window(behind, s[k]);
      WindowMoves(s, k, behind);
      LookbehindPositions(s, k + 1, next);
      var r, tail := LookbehindUnfold(s, k, behind);
      assert r[0] == SubstitutedAt(s, k) by {
        BehindName(s, k, behind);
      }
      forall i | k < i < |s| ensures r[i - k] == SubstitutedAt(s, i) {
        assert r[i - k] == tail[i - (k + 1)];
      }
    }
  }

  /** One step of the scan: the character at `k`, then the scan from `k + 1` with the window moved on. */
  lemma LookbehindUnfold(s: string, k: nat, behind: string) returns (r: string, tail: string)
    requires k < |s|
    ensures r == Lookbehind(s, k, behind) && tail == Lookbehind(s, k + 1, Window(behind, s[k]))
    ensures r[0] == (if s[k] == ',' && behind != Name then ';' else s[k])
    ensures forall j :: 0 < j < |r| ==> r[j] == tail[j - 1]
  {
    r := Lookbehind(s, k, behind);
    tail := Lookbehind(s, k + 1, Window(behind, s[k]));
  }

  /** The substitution over a whole line. */
  function Substitute(s: string): (r: string)
    ensures |r| == |s|
    ensures forall i :: 0 <= i < |s| ==> r[i] == SubstitutedAt(s, i)
  {
    LookbehindPositions(s, 0, []);
    Lookbehind(s, 0, [])
  }

  /** The substitution never touches the letters of the name, so it changes no position where the name ends. */
  lemma SubstituteKeepsName(s: string, i: int)
    requires 0 <= i <= |s|
    ensures FollowsName(Substitute(s), i) <==> FollowsName(s, i)
  {
  }

  /** One table cell to one output line (without its terminator). */
  function TransformLine(text: string): (r: string)
    ensures |r| == |Name| + 1 + |text|
    ensures r[..|Name| + 1] == Name + ","
    ensures '\n' !in r && '\r' !in r
    ensures forall i :: 0 <= i < |r| && r[i] == ',' ==> FollowsName(r, i)
  {
    var raw := Name + "," + FlattenBreaks(text);
    var r := Substitute(raw);
    assert FollowsName(raw, |Name|);
    forall i | 0 <= i < |r| && r[i] == ',' ensures FollowsName(r, i) {
      SubstituteKeepsName(raw, i);
    }
    assert r[..|Name| + 1] == Name + ",";
    r
  }

  /**
   Position by position: the prefix `Musk,` followed by the text, where a
   line break became a space, a comma after the name stayed, and every other
   comma became a semicolon; nothing else changed.
   */
  lemma TransformLineChars(text: string)
    ensures var r := TransformLine(text);
            var raw := Name + "," + FlattenBreaks(text);
            forall i :: 0 <= i < |text| ==>
              r[|Name| + 1 + i] ==
                if text[i] == '\n' || text[i] == '\r' then ' '
                else if text[i] == ',' then (if FollowsName(raw, |Name| + 1 + i) then ',' else ';')
                else text[i]
  {
  }

  /** The lookbehind really is the only way a comma survives: one right after the name does. */
  lemma CommaAfterNameSurvives(text: string, i: int)
    requires 0 <= i < |text| && text[i] == ','
    requires FollowsName(text, i)
    ensures TransformLine(text)[|Name| + 1 + i] == ','
  {
    var raw := Name + "," + FlattenBreaks(text);
    RawFollowsName(text, i);
    assert raw[|Name| + 1 + i] == ',';
    assert TransformLine(text) == Substitute(raw);
  }

  /** The name in the text is still the name after the prefix is added and breaks are flattened. */
  lemma RawFollowsName(text: string, i: int)
    requires FollowsName(text, i)
    ensures FollowsName(Name + "," + FlattenBreaks(text), |Name| + 1 + i)
  {
    var flat := FlattenBreaks(text);
    var raw := Name + "," + flat;
    assert forall j :: i - |Name| <= j < i ==> flat[j] == text[j];
    assert forall j :: 0 <= j < |flat| ==> raw[|Name| + 1 + j] == flat[j];
  }

  /** Every comma of the text comes right after the name. */
  predicate Protected(text: string)
  {
    forall i :: 0 <= i < |text| && text[i] == ',' ==> FollowsName(text, i)
  }

  /** A one-line text whose every comma comes right after the name passes through unchanged behind the prefix. */
  lemma ProtectedTextKept(text: string)
    requires '\n' !in text && '\r' !in text
    requires Protected(text)
    ensures TransformLine(text) == Name + "," + text
  {
    var raw := Name + "," + text;
    assert FlattenBreaks(text) == text;
    var r := Substitute(raw);
    forall j | 0 <= j < |raw| ensures r[j] == raw[j] {
      KeptAt(text, j);
    }
    assert r == raw;
  }

  lemma KeptAt(text: string, j: int)
    requires Protected(text)
    requires 0 <= j < |Name| + 1 + |text|
    ensures SubstitutedAt(Name + "," + text, j) == (Name + "," + text)[j]
  {
    var raw := Name + "," + text;
    if j > |Name| && raw[j] == ',' {
      var i := j - |Name| - 1;
      assert raw[j] == text[i];
      assert FollowsName(text, i);
      assert forall m :: 0 <= m < |text| ==> raw[|Name| + 1 + m] == text[m];
    }
  }

  /** A post mentioning the author before a comma keeps that comma: the line then has two. */
  lemma MentionKeepsComma(text: string)
    requires text == "Elon Musk, hi"
    ensures TransformLine(text) == "Musk,Elon Musk, hi"
  {
    MentionIsProtected(text);
    ProtectedTextKept(text);
  }

  lemma MentionIsProtected(text: string)
    requires text == "Elon Musk, hi"
    ensures '\n' !in text && '\r' !in text
    ensures Protected(text)
  {
    forall i | 0 <= i < |text| && text[i] == ',' ensures FollowsName(text, i) {
      assert i == 9;
    }
  }

  /** The input table: the `fullText` column when present, a cell per row, None for a missing value. */
  datatype Table = Table(fullText: Option<seq<Option<string>>>)

  /** `dropna()`: the present cells in order. */
  function Present(cells: seq<Option<string>>): (r: seq<string>)
    ensures |r| <= |cells|
    ensures forall t :: t in r <==> Some(t) in cells
  {
    if cells == [] then []
    else if cells[0].Some? then [cells[0].value] + Present(cells[1..])
    else
      assert forall t :: Some(t) in cells <==> Some(t) in cells[1..];
      Present(cells[1..])
  }

  /** `dropna` works cell by cell: a missing cell gives nothing, a present one its text. */
  lemma PresentSingle(cell: Option<string>)
    ensures Present([cell]) == if cell.Some? then [cell.value] else []
  {
    assert [cell][1..] == [];
  }

  /** `dropna` keeps order and multiplicity: filtering two columns one after the other is filtering them joined. */
  lemma {:induction false} PresentAppend(a: seq<Option<string>>, b: seq<Option<string>>)
    ensures Present(a + b) == Present(a) + Present(b)
  {
    if a == [] {
      assert a + b == b;
    } else {
      assert (a + b)[0] == a[0] && (a + b)[1..] == a[1..] + b;
      PresentAppend(a[1..], b);
    }
  }

  function TransformAll(texts: seq<string>): (lines: seq<string>)
    ensures |lines| == |texts|
    ensures forall k :: 0 <= k < |texts| ==> lines[k] == TransformLine(texts[k])
  {
    seq(|texts|, k requires 0 <= k < |texts| => TransformLine(texts[k]))
  }

  /** The output file's content, or None when the column is missing and nothing is written. */
  function Transform(t: Table): (out: Option<string>)
    ensures out.None? <==> t.fullText.None?
  {
    match t.fullText
    case None => None
    case Some(cells) => Some(JoinLines(TransformAll(Present(cells))))
  }

  /**
   The output reads back line by line as the transformed non-null cells, in
   input order, and holds exactly one newline per non-null cell.
   */
  lemma TransformLines(cells: seq<Option<string>>)
    ensures var out := Transform(Table(Some(cells))).value;
            && SplitLines(out) == TransformAll(Present(cells))
            && Count(out, '\n') == |Present(cells)|
  {
    var lines := TransformAll(Present(cells));
    forall i | 0 <= i < |lines| ensures '\n' !in lines[i] {
      assert lines[i] == TransformLine(Present(cells)[i]);
    }
    SplitJoinLines(lines);
    JoinLinesCount(lines);
  }
}

=== FILE: gatekeeper.dfy ===
/**
 The wait for the anti-bot checkpoint: the scraper polls the page title and
 three DOM markers until the timeline shows or ten minutes have passed. The
 browser is abstracted to one observation per poll; the clock to the number
 of seconds elapsed since the wait began.
 */
module Gatekeeper {
  import opened Text

  /** Longest wait for the checkpoint, in seconds. */
  const MaxWait: int := 600

  /** What one poll reads from the page. */
  datatype PageSignals = PageSignals(
    title: string,
    hasFeed: bool,     // a `div[role="feed"]` is present
    hasArticle: bool,  // an `article` is present
    hasHeader: bool)   // a `div[data-testid="header"]` is present

  /** One poll: the page signals and the seconds elapsed when they were read. */
  datatype Poll = Poll(signals: PageSignals, elapsed: int)

  /** The title shows the anti-bot interstitial, in English or German, or names its vendor. */
  predicate IsChallengeTitle(title: string)
  {
    Contains(title, "Just a moment") || Contains(title, "Nur einen Moment") || Contains(title, "Cloudflare")
  }

  /** Content is loaded: one of the DOM markers is present, or the title names the account. */
  predicate ShowsContent(p: PageSignals)
  {
    p.hasFeed || p.hasArticle || p.hasHeader || Contains(p.title, "Trump")
  }

  /** The scraper's break condition: no challenge title, and content is loaded. */
  predicate IsReady(p: PageSignals)
  {
    !IsChallengeTitle(p.title) && ShowsContent(p)
  }

  datatype WaitOutcome =
    | TimelineDetected(at: nat)  // the poll at this index saw the timeline
    | TimedOut(at: nat)          // the poll at this index was past the limit and not ready
    | StillWaiting               // none of the given polls ended the wait

  /**
   The checkpoint wait over the polls it performs: readiness is checked
   before the clock, and the wait ends at the first poll that is ready or,
   not ready, strictly past `MaxWait`.
   */
  function AwaitTimeline(polls: seq<Poll>): (r: WaitOutcome)
    ensures r.TimelineDetected? ==> r.at < |polls| && IsReady(polls[r.at].signals)
    ensures r.TimedOut? ==> r.at < |polls| && !IsReady(polls[r.at].signals) && polls[r.at].elapsed > MaxWait
    ensures forall k :: 0 <= k < |polls| && (r.StillWaiting? || k < r.at) ==>
              !IsReady(polls[k].signals) && polls[k].elapsed <= MaxWait
  {
    if polls == [] then StillWaiting
    else if IsReady(polls[0].signals) then TimelineDetected(0)
    else if polls[0].elapsed > MaxWait then TimedOut(0)
    else match AwaitTimeline(polls[1..])
      case TimelineDetected(k) => TimelineDetected(k + 1)
      case TimedOut(k) => TimedOut(k + 1)
      case StillWaiting => StillWaiting
  }

  /** A challenge title is never taken for the timeline, whatever DOM markers are present. */
  lemma ChallengeNeverReady(title: string, feed: bool, article: bool, header: bool)
    requires IsChallengeTitle(title)
    ensures !IsReady(PageSignals(title, feed, article, header))
  {
  }

  /** Without a challenge title, the account name in the title suffices, whatever the DOM shows. */
  lemma AccountTitleReady(title: string, feed: bool, article: bool, header: bool)
    requires !IsChallengeTitle(title) && Contains(title, "Trump")
    ensures IsReady(PageSignals(title, feed, article, header))
  {
  }

  /** Without a challenge title, any one of the DOM markers suffices, whatever the title says otherwise. */
  lemma MarkerReady(title: string, feed: bool, article: bool, header: bool)
    requires !IsChallengeTitle(title) && (feed || article || header)
    ensures IsReady(PageSignals(title, feed, article, header))
  {
  }

  /** A page without a challenge title that is not ready shows no marker and does not name the account. */
  lemma NotReadyShowsNothing(p: PageSignals)
    requires !IsChallengeTitle(p.title) && !IsReady(p)
    ensures !p.hasFeed && !p.hasArticle && !p.hasHeader && !Contains(p.title, "Trump")
  {
  }

  /** While every poll shows a challenge title the timeline is never detected: the wait can only time out. */
  lemma {:induction false} ChallengeBlocksDetection(polls: seq<Poll>)
    requires forall k :: 0 <= k < |polls| ==> IsChallengeTitle(polls[k].signals.title)
    ensures !AwaitTimeline(polls).TimelineDetected?
  {
    if polls != [] {
      ChallengeBlocksDetection(polls[1..]);
    }
  }

  /** The interstitial title shown by the checkpoint is recognised, even when it mentions the account. */
  lemma InterstitialTitle()
    ensures !IsReady(PageSignals("Just a moment... | Trump", true, true, true))
  {
    assert OccursAt("Just a moment... | Trump", "Just a moment", 0);
  }

  /** The profile's own title is enough once the interstitial is gone. */
  lemma ProfileTitle()
    ensures IsReady(PageSignals(ProfileTitleText, false, false, false))
  {
    ProfileTitleNamesAccount();
    ProfileTitleNoChallenge();
  }

  const ProfileTitleText: string := "Donald J. Trump (@realDonaldTrump)"

  lemma ProfileTitleNamesAccount()
    ensures Contains(ProfileTitleText, "Trump")
  {
    var t := ProfileTitleText;
    assert t[10] == 'T';
    assert t[11] == 'r';
    assert t[12] == 'u';
    assert t[13] == 'm';
    assert t[14] == 'p';
    assert t[10..15] == "Trump";
    assert OccursAt(t, "Trump", 10);
  }

  lemma ProfileTitleNoChallenge()
    ensures !IsChallengeTitle(ProfileTitleText)
  {
    var t := ProfileTitleText;
    assert forall k :: 0 <= k < |t| ==> t[k] != 's' && t[k] != 'N' && t[k] != 'C';
    MissingCharNotContained(t, "Just a moment", 2);
    MissingCharNotContained(t, "Nur einen Moment", 0);
    MissingCharNotContained(t, "Cloudflare", 0);
  }
}

=== FILE: listener.dfy ===
/**
 The passive capture listener `handle_response`: it looks at every network
 response of the page while the operator scrolls, harvests timeline pages
 and appends them to the progress file. It never touches the paginator's
 in-memory cursor; it only overwrites the cursor file.
 */
module Listener {
  import opened Wrappers
  import opened Text
  import opened Batch
  import opened ProgressStore

  /** A network response the page received; `body` is None when it is not valid JSON. */
  datatype Response = Response(url: string, status: int, body: Option<Json>)

  /** What one response leaves behind: rows appended and the cursor file written, if any. */
  datatype Capture = Capture(saved: seq<Row>, cursorWrite: Option<string>)

  /** An account-timeline API response that succeeded. */
  predicate IsTimelineResponse(r: Response)
  {
    Contains(r.url, "api/v1/accounts") && Contains(r.url, "statuses") && r.status == 200
  }

  /** The body is a non-empty list of entries. */
  predicate HasEntries(r: Response)
  {
    r.body.Some? && r.body.value.List? && r.body.value.items != []
  }

  const Nothing: Capture := Capture([], None)

  /**
   `handle_response` for one response. Everything it may raise (invalid
   JSON, a malformed entry) is swallowed, and then nothing is written.
   */
  function HandleResponse(r: Response): (c: Capture)
    ensures AllClean(c.saved)
    ensures c.cursorWrite.Some? ==> c.saved != [] && c.cursorWrite.value != []
    ensures !(IsTimelineResponse(r) && HasEntries(r)) ==> c == Nothing
    ensures c.saved != [] ==>
              && IsTimelineResponse(r) && HasEntries(r)
              && (forall k :: 0 <= k < |r.body.value.items| ==> r.body.value.items[k].Post?)
              && c.saved == ScanEntries(r.body.value.items, []).rows
    ensures c.cursorWrite.Some? ==> c.cursorWrite.value == Last(r.body.value.items).id
  {
    if !IsTimelineResponse(r) || r.body.None? then Nothing
    else match r.body.value
      case List(items) =>
        if items == [] then Nothing
        else
          var scan := ScanEntries(items, []);
          if !scan.complete || scan.rows == [] then Nothing
          else Capture(scan.rows, if scan.cursor != [] then Some(scan.cursor) else None)
      case _ => Nothing
  }

  function Last<T>(s: seq<T>): T
    requires s != []
  {
    s[|s| - 1]
  }

  /** Writes one capture to the files: the batch first, then the cursor. */
  function Persist(d: Disk, c: Capture): (d': Disk)
    ensures d'.progress == d.progress + c.saved
    ensures d'.cursorFile == if c.cursorWrite.Some? then c.cursorWrite else d.cursorFile
  {
    var appended := if c.saved != [] then Append(d, c.saved) else d;
    match c.cursorWrite
    case Some(token) => SaveCursor(appended, token)
    case None => appended
  }

  /** The listener over the responses seen while scrolling: the files afterwards and the rows it added to the run's list. */
  function Listen(d: Disk, responses: seq<Response>): (r: (Disk, seq<Row>))
    ensures r.0.progress == d.progress + r.1
    ensures AllClean(r.1)
    ensures (forall k :: 0 <= k < |responses| ==> !IsTimelineResponse(responses[k])) ==> r == (d, [])
    decreases |responses|
  {
    if responses == [] then (d, [])
    else
      var c := HandleResponse(responses[0]);
      var rest := Listen(Persist(d, c), responses[1..]);
      AllCleanConcat(c.saved, rest.1);
      ConcatAssoc(d.progress, c.saved, rest.1);
      assert (forall k :: 0 <= k < |responses| ==> !IsTimelineResponse(responses[k])) ==>
               c == Nothing && forall k :: 0 <= k < |responses[1..]| ==> !IsTimelineResponse(responses[1..][k]) by {
        if forall k :: 0 <= k < |responses| ==> !IsTimelineResponse(responses[k]) {
          assert !IsTimelineResponse(responses[0]);
          forall k | 0 <= k < |responses[1..]| ensures !IsTimelineResponse(responses[1..][k]) {
            assert responses[1..][k] == responses[k + 1];
          }
        }
      }
      (rest.0, c.saved + rest.1)
  }

  /** One response: it is handled, and its capture is persisted. */
  lemma ListenSingle(d: Disk, x: Response)
    ensures Listen(d, [x]) == (Persist(d, HandleResponse(x)), HandleResponse(x).saved)
  {
    var c := HandleResponse(x);
    assert [x][1..] == [];
    assert Listen(Persist(d, c), []) == (Persist(d, c), []);
    assert c.saved + [] == c.saved;
  }

  /**
   Listening to two stretches of responses is listening to the first, then
   to the second from the files the first left: the rows are the first
   stretch's followed by the second's.
   */
  lemma {:induction false} ListenAppend(d: Disk, a: seq<Response>, b: seq<Response>)
    ensures var first := Listen(d, a);
            var second := Listen(first.0, b);
            Listen(d, a + b) == (second.0, first.1 + second.1)
    decreases |a|
  {
    if a == [] {
      assert a + b == b;
      assert Listen(d, a) == (d, []);
      assert [] + Listen(d, b).1 == Listen(d, b).1;
    } else {
      var c := HandleResponse(a[0]);
      assert (a + b)[0] == a[0] && (a + b)[1..] == a[1..] + b;
      ListenAppend(Persist(d, c), a[1..], b);
      var rest := Listen(Persist(d, c), a[1..]);
      var second := Listen(rest.0, b);
      assert Listen(d, a) == (rest.0, c.saved + rest.1);
      assert Listen(d, a + b) == (second.0, c.saved + (rest.1 + second.1));
      ConcatAssoc(c.saved, rest.1, second.1);
    }
  }

  /** A body that is not a list (an error object, say) is ignored: no rows, no cursor. */
  lemma NonListIgnored(url: string, truthy: bool)
    ensures HandleResponse(Response(url, 200, Some(NonList(truthy)))) == Nothing
  {
  }

  /**
   A timeline page whose entries are all well formed and whose cleaned rows
   are not all empty is appended in full; the cursor file then receives the
   last entry's id exactly when that id is non-empty.
   */
  lemma WellFormedPageCaptured(r: Response)
    requires IsTimelineResponse(r) && HasEntries(r)
    requires forall k :: 0 <= k < |r.body.value.items| ==> r.body.value.items[k].Post?
    requires ScanEntries(r.body.value.items, []).rows != []
    ensures HandleResponse(r).saved == ScanEntries(r.body.value.items, []).rows
    ensures HandleResponse(r).cursorWrite.Some? <==> Last(r.body.value.items).id != []
  {
  }
}

=== FILE: normalizer.dfy ===
/**
 The content normaliser `clean_html` of the scraper: strip `<...>` tags with
 the non-greedy pattern `<.*?>` (where `.` matches anything but '\n'), turn
 '\n' into a space, delete '\r', turn ',' into ';', and strip surrounding
 whitespace. A falsy body (missing, null or empty) is written "" here and
 yields "".
 */
module Normalizer {
  import opened Wrappers
  import opened Text

  /**
   Where the tag opened by a '<' just before `s` closes: the offset of the
   first '>' in `s`, provided no '\n' comes before it (the shortest match of
   `.*?>`); None when a '\n' or the end of `s` comes first.
   */
  function TagEnd(s: string): (r: Option<nat>)
    ensures r.Some? ==> r.value < |s| && s[r.value] == '>'
    ensures r.Some? ==> forall m :: 0 <= m < r.value ==> s[m] != '>' && s[m] != '\n'
    ensures r.None? ==> forall m :: 0 <= m < |s| && s[m] == '>' ==> '\n' in s[..m]
  {
    if s == [] then None
    else if s[0] == '>' then Some(0)
    else if s[0] == '\n' then None
    else match TagEnd(s[1..])
      case Some(j) => Some(j + 1)
      case None =>
        assert forall m :: 1 <= m < |s| && s[m] == '>' ==> '\n' in s[1..][..m - 1] ==> '\n' in s[..m];
        None
  }

  /** A '<' at index `i` of `s` that the pattern matches as the start of a tag. */
  predicate OpensTag(s: string, i: int)
  {
    0 <= i < |s| && s[i] == '<' && TagEnd(s[i + 1..]).Some?
  }

  /** No tag left to remove: every '<' has a '\n' (or the end) before any '>'. */
  predicate NoTag(s: string)
  {
    forall i :: 0 <= i < |s| ==> !OpensTag(s, i)
  }

  /** Python's `re.sub('<.*?>', '', s)`: matches are found left to right and do not overlap. */
  function StripTags(s: string): (r: string)
    ensures |r| <= |s|
    ensures forall c :: c in r ==> c in s
    decreases |s|
  {
    if s == [] then []
    else if s[0] == '<' && TagEnd(s[1..]).Some? then
      var rest := s[TagEnd(s[1..]).value + 2..];
      assert forall c :: c in rest ==> c in s;
      StripTags(rest)
    else
      assert forall c :: c in s[1..] ==> c in s;
      [s[0]] + StripTags(s[1..])
  }

  /** No character is removed from a tail that has no '>' before its first '\n'. */
  lemma {:induction false} UnclosedTailSurvives(t: string)
    requires TagEnd(t).None?
    ensures TagEnd(StripTags(t)).None?
  {
    if t != [] && t[0] != '\n' {
      assert t[0] != '>';
      assert TagEnd(t[1..]).None?;
      UnclosedTailSurvives(t[1..]);
      var rest := StripTags(t[1..]);
      assert StripTags(t) == [t[0]] + rest;
      assert ([t[0]] + rest)[1..] == rest;
    }
  }

  lemma ConsOpensTag(c: char, r: string, i: int)
    requires 0 <= i < |r|
    ensures OpensTag([c] + r, i + 1) == OpensTag(r, i)
  {
    assert ([c] + r)[i + 2..] == r[i + 1..];
  }

  /** After `re.sub('<.*?>', '', s)` no tag is left. */
  lemma {:induction false} StripTagsLeavesNoTag(s: string)
    ensures NoTag(StripTags(s))
    decreases |s|
  {
    if s == [] {
    } else if s[0] == '<' && TagEnd(s[1..]).Some? {
      StripTagsLeavesNoTag(s[TagEnd(s[1..]).value + 2..]);
    } else {
      var rest := StripTags(s[1..]);
      var r := [s[0]] + rest;
      StripTagsLeavesNoTag(s[1..]);
      forall i | 0 <= i < |r| ensures !OpensTag(r, i) {
        if i == 0 {
          if s[0] == '<' {
            UnclosedTailSurvives(s[1..]);
            assert r[1..] == rest;
          }
        } else {
          ConsOpensTag(s[0], rest, i - 1);
        }
      }
    }
  }

  /** Text without a tag passes through `re.sub('<.*?>', '', s)` unchanged. */
  lemma {:induction false} NoTagUnchanged(s: string)
    requires NoTag(s)
    ensures StripTags(s) == s
  {
    if s != [] {
      assert !OpensTag(s, 0);
      assert NoTag(s[1..]) by {
        forall i | 0 <= i < |s[1..]| ensures !OpensTag(s[1..], i) {
          assert s == [s[0]] + s[1..];
          ConsOpensTag(s[0], s[1..], i);
          assert !OpensTag(s, i + 1);
        }
      }
      NoTagUnchanged(s[1..]);
      assert s == [s[0]] + s[1..];
    }
  }

  /** The fixed points of tag removal are exactly the texts without a tag. */
  lemma StripTagsFixedIff(s: string)
    ensures StripTags(s) == s <==> NoTag(s)
  {
    StripTagsLeavesNoTag(s);
    if NoTag(s) {
      NoTagUnchanged(s);
    }
  }

  /** Tag removal either changes nothing or makes the text strictly shorter. */
  lemma {:induction false} StripTagsShrinks(s: string)
    ensures StripTags(s) == s || |StripTags(s)| < |s|
    decreases |s|
  {
    if s != [] && !(s[0] == '<' && TagEnd(s[1..]).Some?) {
      StripTagsShrinks(s[1..]);
      assert s == [s[0]] + s[1..];
    }
  }

  /** A removed span never contains '\n': tag removal keeps every line break. */
  lemma {:induction false} StripTagsKeepsNewlines(s: string)
    ensures Count(StripTags(s), '\n') == Count(s, '\n')
    decreases |s|
  {
    if s == [] {
    } else if s[0] == '<' && TagEnd(s[1..]).Some? {
      var j := TagEnd(s[1..]).value;
      StripTagsKeepsNewlines(s[j + 2..]);
      assert s == s[..j + 2] + s[j + 2..];
      CountAppend(s[..j + 2], s[j + 2..], '\n');
      assert '\n' !in s[..j + 2] by {
        forall m | 0 <= m < j + 2 ensures s[m] != '\n' {
          if m > 0 { assert s[1..][m - 1] == s[m]; }
        }
      }
      CountAbsent(s[..j + 2], '\n');
    } else {
      StripTagsKeepsNewlines(s[1..]);
      CountAppend([s[0]], StripTags(s[1..]), '\n');
    }
  }

  /** Text before the first '<' is kept as it stands, and the scan resumes after it. */
  lemma {:induction false} StripTagsPlain(x: string, y: string)
    requires '<' !in x
    ensures StripTags(x + y) == x + StripTags(y)
    decreases |x|
  {
    if x != [] {
      var s := x + y;
      assert s[0] == x[0] && s[1..] == x[1..] + y;
      StripTagsPlain(x[1..], y);
      assert x == [x[0]] + x[1..];
    } else {
      assert x + y == y;
    }
  }

  /** A '>' that ends `t` with no '>' or '\n' before it closes the tag opened just before `t`. */
  lemma {:induction false} TagEndAt(t: string, y: string)
    requires '>' !in t && '\n' !in t
    ensures TagEnd(t + ">" + y) == Some(|t|)
    decreases |t|
  {
    var s := t + ">" + y;
    if t == [] {
      assert s[0] == '>';
    } else {
      assert s[0] == t[0] && s[1..] == t[1..] + ">" + y;
      TagEndAt(t[1..], y);
    }
  }

  /** A closed `<...>` span without a line break is deleted whole, and the scan resumes after it. */
  lemma StripTagsSpan(t: string, y: string)
    requires '>' !in t && '\n' !in t
    ensures StripTags("<" + t + ">" + y) == StripTags(y)
  {
    var s := "<" + t + ">" + y;
    assert s[1..] == t + ">" + y;
    TagEndAt(t, y);
    assert s[|t| + 2..] == y;
  }

  /** A '<' with no '>' before the next '\n' (or the end) is kept, and the scan moves on to the next character. */
  lemma StripTagsKeepsOpen(t: string)
    requires TagEnd(t).None?
    ensures StripTags("<" + t) == "<" + StripTags(t)
  {
    var s := "<" + t;
    assert s[0] == '<' && s[1..] == t;
  }

  /** A '<' somewhere before a '>', whatever lies between. */
  predicate NoAngleSpan(s: string)
  {
    forall i, j :: 0 <= i < j < |s| && s[i] == '<' ==> s[j] != '>'
  }

  /**
   The replacement chain of `clean_html`: '\n' to a space, '\r' deleted,
   ',' to ';', applied one after the other as the three `replace` calls are.
   */
  function FlattenDelims(s: string): (r: string)
    ensures '\n' !in r && '\r' !in r && ',' !in r
    ensures |r| <= |s|
  {
    var v := ReplaceChar(s, '\n', ' ');
    assert '\n' !in v;
    var u := RemoveChar(v, '\r');
    assert '\n' !in u;
    ReplaceChar(u, ',', ';')
  }

  /** What the replacement chain makes of one character: a space, nothing, a semicolon, or the character itself. */
  function FlattenChar(c: char): string
  {
    if c == '\n' then " " else if c == '\r' then [] else if c == ',' then ";" else [c]
  }

  /** The replacement chain as a character-by-character rewrite, an independent reference for `FlattenDelims`. */
  function FlattenEach(s: string): string
  {
    if s == [] then [] else FlattenChar(s[0]) + FlattenEach(s[1..])
  }

  /** The three replacements distribute over concatenation: none of them looks at more than one character. */
  lemma FlattenDelimsAppend(a: string, b: string)
    ensures FlattenDelims(a + b) == FlattenDelims(a) + FlattenDelims(b)
  {
    ReplaceCharAppend(a, b, '\n', ' ');
    var va, vb := ReplaceChar(a, '\n', ' '), ReplaceChar(b, '\n', ' ');
    RemoveCharAppend(va, vb, '\r');
    ReplaceCharAppend(RemoveChar(va, '\r'), RemoveChar(vb, '\r'), ',', ';');
  }

  /** One character through the chain: '\n' becomes a space, '\r' is deleted (not spaced), ',' becomes ';'. */
  lemma FlattenDelimsChar(c: char)
    ensures FlattenDelims([c]) == FlattenChar(c)
  {
    var v := ReplaceChar([c], '\n', ' ');
    assert v == [if c == '\n' then ' ' else c];
    assert RemoveChar(v, '\r') == (if v[0] == '\r' then [] else [v[0]]) + RemoveChar(v[1..], '\r');
    assert v[1..] == [];
  }

  /** The replacement chain is exactly the character-by-character rewrite. */
  lemma {:induction false} FlattenDelimsEach(s: string)
    ensures FlattenDelims(s) == FlattenEach(s)
  {
    if s == [] {
      assert ReplaceChar(s, '\n', ' ') == [];
      assert RemoveChar([], '\r') == [];
    } else {
      assert s == [s[0]] + s[1..];
      FlattenDelimsAppend([s[0]], s[1..]);
      FlattenDelimsChar(s[0]);
      FlattenDelimsEach(s[1..]);
    }
  }

  /**
   Python's `clean_html(raw_html)`: the tag-stripped, flattened text with
   whitespace cut from both ends and from nowhere else.
   */
  function CleanHtml(raw: string): (r: string)
    ensures '\n' !in r && '\r' !in r && ',' !in r
    ensures NoEdgeSpace(r)
    ensures |r| <= |StripTags(raw)| <= |raw|
    ensures raw == [] ==> r == []
    ensures raw != [] ==> exists i :: StripWindow(FlattenDelims(StripTags(raw)), r, i)
  {
    if raw == [] then []
    else
      var t := FlattenDelims(StripTags(raw));
      StripShape(t);
      var r := Strip(t);
      assert StripWindow(t, r, |t| - |TrimLeft(t)|);
      r
  }

  /** Without a '\n', a '<' followed anywhere by a '>' opens a tag. */
  lemma {:induction false} CloserFound(t: string, j: int)
    requires '\n' !in t && 0 <= j < |t| && t[j] == '>'
    ensures TagEnd(t).Some?
  {
    if t[0] != '>' {
      assert '\n' !in t[1..];
      CloserFound(t[1..], j - 1);
    }
  }

  /** The same edge-trimmed text without '\n', '\r', ',' or tags is its own clean form. */
  lemma CleanTextUnchanged(r: string)
    requires '\n' !in r && '\r' !in r && ',' !in r && NoEdgeSpace(r) && NoTag(r)
    ensures CleanHtml(r) == r
  {
    if r != [] {
      NoTagUnchanged(r);
      assert ReplaceChar(r, '\n', ' ') == r;
      RemoveCharAbsent(r, '\r');
      assert ReplaceChar(r, ',', ';') == r;
      assert FlattenDelims(r) == r;
      StripTrimmed(r);
    }
  }

  /** A cleaned body with no '<' before a '>' is its own clean form. */
  lemma CleanHtmlStable(raw: string)
    requires NoAngleSpan(CleanHtml(raw))
    ensures CleanHtml(CleanHtml(raw)) == CleanHtml(raw)
  {
    var r := CleanHtml(raw);
    assert NoTag(r);
    CleanTextUnchanged(r);
  }

  /** A cleaned body with a '<' before a '>' loses that span when cleaned again. */
  lemma CleanHtmlUnstable(raw: string)
    requires !NoAngleSpan(CleanHtml(raw))
    ensures |CleanHtml(CleanHtml(raw))| < |CleanHtml(raw)|
  {
    CleanAgainShrinks(CleanHtml(raw));
  }

  /** A one-line text with a '<' before a '>' holds a tag, so cleaning it removes something. */
  lemma CleanAgainShrinks(r: string)
    requires '\n' !in r && !NoAngleSpan(r)
    ensures |CleanHtml(r)| < |r|
  {
    var i, j :| 0 <= i < j < |r| && r[i] == '<' && r[j] == '>';
    var tail := r[i + 1..];
    assert '\n' !in tail;
    assert tail[j - i - 1] == '>';
    CloserFound(tail, j - i - 1);
    assert OpensTag(r, i);
    StripTagsFixedIff(r);
    StripTagsShrinks(r);
  }

  /**
   Cleaning a cleaned body again changes nothing exactly when the cleaned
   body has no '<' followed later by '>': such a pair survives the first pass
   only because a '\n' separated them, and that '\n' became a space.
   */
  lemma CleanHtmlIdempotentIff(raw: string)
    ensures CleanHtml(CleanHtml(raw)) == CleanHtml(raw) <==> NoAngleSpan(CleanHtml(raw))
  {
    if NoAngleSpan(CleanHtml(raw)) {
      CleanHtmlStable(raw);
    } else {
      CleanHtmlUnstable(raw);
    }
  }

  /** The repeat is not a no-op in general: a '\n' inside the brackets blocks the first pass only. */
  lemma CleanHtmlNotIdempotent(s: string)
    requires s == "<\n>"
    ensures CleanHtml(s) == "< >"
    ensures CleanHtml(CleanHtml(s)) == ""
  {
    var once := FirstPass(s);
    SecondPass(once);
  }

  lemma FirstPass(s: string) returns (once: string)
    requires s == "<\n>"
    ensures once == CleanHtml(s) == "< >"
  {
    var flat := ReplaceChar(s, '\n', ' ');
    assert StripTags(s) == s by {
      assert TagEnd(s[1..]).None?;
      assert NoTag(s) by {
        forall i | 0 <= i < |s| ensures !OpensTag(s, i) {
          if i > 0 { assert s[i] != '<'; }
        }
      }
      NoTagUnchanged(s);
    }
    assert FlattenDelims(s) == flat && flat == "< >" by {
      assert flat == "< >";
      RemoveCharAbsent(flat, '\r');
      assert ReplaceChar(flat, ',', ';') == flat;
    }
    assert Strip(flat) == flat by {
      StripTrimmed(flat);
    }
    once := CleanHtml(s);
  }

  lemma SecondPass(s: string)
    requires s == "< >"
    ensures CleanHtml(s) == ""
  {
    var rest := s[1..];
    assert rest[1] == '>' && rest[0] != '>' && rest[0] != '\n';
    assert TagEnd(rest[1..]) == Some(0);
    assert TagEnd(rest) == Some(1);
    assert StripTags(s) == [];
    assert FlattenDelims([]) == [];
  }
}

=== FILE: paginator.dfy ===
/**
 The active paginator: after the checkpoint, the scraper fetches pages of
 40 posts from inside the browser, older than the cursor each time, until
 the run's row count reaches the target or a page comes back empty. One
 iteration of its loop is the pure function `Step` over the fetch outcome;
 sleeps, jitter, the mouse move and the page reload are left to the caller
 (a reload is reported as an effect).
 */
module Paginator {
  import opened Wrappers
  import opened Text
  import opened Batch
  import opened ProgressStore

  /** The backoff before the first 429 of a run, in seconds. */
  const InitialBackoff: int := 10
  /** The backoff after every successful page. */
  const BackoffFloor: int := 5
  /** The backoff never grows past this. */
  const BackoffCeiling: int := 60
  /** More consecutive errors than this trigger a cooldown and a page reload. */
  const ErrorThreshold: int := 5

  /** The loop's variables: `max_id`, `backoff_time`, `consecutive_errors` and `len(all_truths)`. */
  datatype State = State(cursor: string, backoff: int, errors: int, total: nat)

  /** What one `page.evaluate(fetch ...)` call produced. */
  datatype Outcome =
    | Fetched(status: int, body: Json)  // the status, and the body decoded as JSON (null when it is not JSON)
    | Raised                            // the call itself raised on the Python side

  /** What an iteration leaves for the outside world. */
  datatype Effects = Effects(saved: seq<Row>, cursorWrite: Option<string>, reloaded: bool)

  const NoEffects: Effects := Effects([], None, false)

  datatype StepResult =
    | Exhausted                              // a 200 with an empty or null body: the loop breaks
    | Next(state: State, effects: Effects)   // the loop goes round again (if the target is not met)

  /** The bounds the loop keeps: backoff between floor and ceiling, at most `ErrorThreshold` errors. */
  predicate Inv(s: State)
  {
    BackoffFloor <= s.backoff <= BackoffCeiling && 0 <= s.errors <= ErrorThreshold
  }

  /** The state the loop starts in, resuming from the cursor file. */
  function Start(d: Disk, captured: nat): (s: State)
    ensures Inv(s)
    ensures s.cursor == LoadCursor(d) && s.total == captured && s.errors == 0
  {
    State(LoadCursor(d), InitialBackoff, 0, captured)
  }

  function BaseUrl(userId: string): string
  {
    "https://truthsocial.com/api/v1/accounts/" + userId + "/statuses?limit=40"
  }

  /** The page request for a cursor: the base query, plus `&max_id=<cursor>` when the cursor is non-empty. */
  function RequestUrl(userId: string, cursor: string): (u: string)
    ensures |BaseUrl(userId)| <= |u| && u[..|BaseUrl(userId)|] == BaseUrl(userId)
    ensures cursor == [] ==> u == BaseUrl(userId)
    ensures cursor != [] ==> u[|BaseUrl(userId)|..] == "&max_id=" + cursor
  {
    if cursor != [] then BaseUrl(userId) + "&max_id=" + cursor else BaseUrl(userId)
  }

  /** The check after every answered fetch: past the threshold the page is reloaded and the count restarts. */
  function Recover(s: State, saved: seq<Row>, cursorWrite: Option<string>): (r: StepResult)
    ensures r.Next? && r.effects.saved == saved && r.effects.cursorWrite == cursorWrite
    ensures r.effects.reloaded <==> s.errors > ErrorThreshold
    ensures r.state == s.(errors := if s.errors > ErrorThreshold then 0 else s.errors)
    ensures s.errors <= ErrorThreshold + 1 ==> r.state.errors <= ErrorThreshold
  {
    if s.errors > ErrorThreshold then Next(s.(errors := 0), Effects(saved, cursorWrite, true))
    else Next(s, Effects(saved, cursorWrite, false))
  }

  /** The last entry of a non-empty list. */
  function LastId(items: seq<Item>): string
    requires items != [] && items[|items| - 1].Post?
  {
    items[|items| - 1].id
  }

  /** A 200 answer: an empty or null body ends the loop, a list is scanned, any other truthy body raises. */
  function PageStep(s: State, body: Json): (r: StepResult)
    ensures r.Exhausted? <==> Falsy(body)
    ensures r.Next? ==> r.state.total == s.total + |r.effects.saved| && AllClean(r.effects.saved)
    ensures r.Next? && r.effects.cursorWrite.Some? ==> r.effects.cursorWrite.value == r.state.cursor != []
    ensures r.Next? ==> !r.effects.reloaded
    ensures Inv(s) && r.Next? ==> Inv(r.state)
    // a page of well-formed entries: rows saved, cursor at the last id, backoff and errors reset
    ensures body.List? && body.items != [] && (forall k :: 0 <= k < |body.items| ==> body.items[k].Post?) ==>
              && r.Next?
              && r.state == State(LastId(body.items), BackoffFloor, 0, s.total + |r.effects.saved|)
              && r.effects.saved == ScanEntries(body.items, s.cursor).rows
              && (r.effects.cursorWrite.Some? <==> LastId(body.items) != [])
    // a page on which an entry raises: `max_id` has moved over the entries before it, nothing is saved
    ensures body.List? ==>
              forall k :: FirstMalformed(body.items, k) ==>
                r == Next(s.(cursor := if k == 0 then s.cursor else body.items[k - 1].id), NoEffects)
    // iterating a truthy non-list body raises before the first entry
    ensures body == NonList(true) ==> r == Next(s, NoEffects)
  {
    if Falsy(body) then Exhausted
    else match body
      case List(items) =>
        var scan := ScanEntries(items, s.cursor);
        if !scan.complete then
          // the loop raised at a malformed entry: `max_id` has moved, nothing was saved
          assert forall k :: FirstMalformed(items, k) ==> scan.cursor == (if k == 0 then s.cursor else items[k - 1].id) by {
            var k0 :| FirstMalformed(items, k0) && scan.cursor == (if k0 == 0 then s.cursor else items[k0 - 1].id);
            forall k | FirstMalformed(items, k) ensures k == k0 {
              FirstMalformedUnique(items, k, k0);
            }
          }
          Next(s.(cursor := scan.cursor), NoEffects)
        else
          Recover(State(scan.cursor, BackoffFloor, 0, s.total + |scan.rows|),
                  scan.rows, if scan.cursor != [] then Some(scan.cursor) else None)
      case _ =>
        // iterating a truthy non-list body raises before the first entry
        Next(s, NoEffects)
  }

  /** One iteration of the `while len(all_truths) < target_count` loop. */
  function Step(s: State, o: Outcome): (r: StepResult)
    ensures r.Exhausted? <==> o.Fetched? && o.status == 200 && Falsy(o.body)
    ensures r.Next? ==> r.state.total == s.total + |r.effects.saved|
    ensures r.Next? ==> AllClean(r.effects.saved)
    ensures r.Next? && r.effects.cursorWrite.Some? ==>
              r.effects.cursorWrite.value == r.state.cursor != []
    ensures Inv(s) && r.Next? ==> Inv(r.state)
    // a page of well-formed entries
    ensures o.Fetched? && o.status == 200 && o.body.List? && o.body.items != []
            && (forall k :: 0 <= k < |o.body.items| ==> o.body.items[k].Post?) ==>
              && r.Next?
              && r.state == State(LastId(o.body.items), BackoffFloor, 0, s.total + |r.effects.saved|)
              && r.effects.saved == ScanEntries(o.body.items, s.cursor).rows
              && (r.effects.cursorWrite.Some? <==> LastId(o.body.items) != [])
              && !r.effects.reloaded
    // rate limited
    ensures Inv(s) && o.Fetched? && o.status == 429 ==>
              r == Next(s.(backoff := if 2 * s.backoff < BackoffCeiling then 2 * s.backoff else BackoffCeiling), NoEffects)
    // forbidden, or any other status
    ensures Inv(s) && o.Fetched? && o.status != 200 && o.status != 429 ==>
              && r.Next? && r.effects.saved == [] && r.effects.cursorWrite.None?
              && r.state == s.(errors := if s.errors < ErrorThreshold then s.errors + 1 else 0)
              && (r.effects.reloaded <==> s.errors == ErrorThreshold)
    // a page on which an entry raises: `max_id` has moved over the entries before it, nothing is saved
    ensures o.Fetched? && o.status == 200 && o.body.List? ==>
              forall k :: FirstMalformed(o.body.items, k) ==>
                r == Next(s.(cursor := if k == 0 then s.cursor else o.body.items[k - 1].id), NoEffects)
    // iterating a truthy non-list body raises before the first entry
    ensures o == Fetched(200, NonList(true)) ==> r == Next(s, NoEffects)
    // the fetch call itself raised on the Python side
    ensures o.Raised? ==> r == Next(s, NoEffects)
  {
    match o
    case Raised => Next(s, NoEffects)
    case Fetched(status, body) =>
      if status == 200 then PageStep(s, body)
      else if status == 429 then
        Recover(s.(backoff := if 2 * s.backoff < BackoffCeiling then 2 * s.backoff else BackoffCeiling), [], None)
      else
        // 403 and every other status (0 for a failed fetch) count as an error
        Recover(s.(errors := s.errors + 1), [], None)
  }

  /** The cursor write an iteration makes, as a sequence of zero or one tokens. */
  function WritesOf(e: Effects): seq<string>
  {
    if e.cursorWrite.Some? then [e.cursorWrite.value] else []
  }

  datatype StopReason = TargetReached | SourceExhausted | OutOfOutcomes

  /** A run of the loop: final state, rows appended, cursor-file writes, URLs requested, page reloads, and why it stopped. */
  datatype Trace = Trace(
    final: State,
    saved: seq<Row>,
    cursorWrites: seq<string>,
    urls: seq<string>,
    reloads: nat,
    stop: StopReason)

  /**
   The loop over the outcomes its fetches meet, one outcome per iteration.
   It stops when the row count reaches the target, when a page is empty, or
   when the given outcomes run out (the source has no iteration cap).
   */
  function Run(userId: string, target: nat, s: State, outcomes: seq<Outcome>): (t: Trace)
    ensures Inv(s) ==> Inv(t.final)
    ensures t.final.total == s.total + |t.saved|
    ensures AllClean(t.saved)
    ensures t.stop == TargetReached <==> t.final.total >= target
    ensures t.stop == OutOfOutcomes ==> |t.urls| == |outcomes|
    ensures |t.urls| <= |outcomes|
    ensures s.total >= target ==> t == Trace(s, [], [], [], 0, TargetReached)
    ensures s.total < target && outcomes != [] ==> t.urls != [] && t.urls[0] == RequestUrl(userId, s.cursor)
    ensures forall k :: 0 <= k < |t.cursorWrites| ==> t.cursorWrites[k] != []
    decreases |outcomes|
  {
    if s.total >= target then Trace(s, [], [], [], 0, TargetReached)
    else if outcomes == [] then Trace(s, [], [], [], 0, OutOfOutcomes)
    else
      var url := RequestUrl(userId, s.cursor);
      match Step(s, outcomes[0])
      case Exhausted => Trace(s, [], [], [url], 0, SourceExhausted)
      case Next(next, e) =>
        var rest := Run(userId, target, next, outcomes[1..]);
        AllCleanConcat(e.saved, rest.saved);
        Trace(rest.final, e.saved + rest.saved, WritesOf(e) + rest.cursorWrites, [url] + rest.urls,
              (if e.reloaded then 1 else 0) + rest.reloads, rest.stop)
  }

  /** A 200 whose body is empty or null ends the run where it stands: nothing saved, cursor and count unchanged. */
  lemma EmptyPageEndsRun(userId: string, target: nat, s: State, outcomes: seq<Outcome>)
    requires s.total < target && outcomes != []
    requires outcomes[0].Fetched? && outcomes[0].status == 200 && Falsy(outcomes[0].body)
    ensures Run(userId, target, s, outcomes) == Trace(s, [], [], [RequestUrl(userId, s.cursor)], 0, SourceExhausted)
  {
  }

  function Pow2(n: nat): (p: nat)
    ensures p >= 1
  {
    if n == 0 then 1 else 2 * Pow2(n - 1)
  }

  function Min(a: int, b: int): int
  {
    if a < b then a else b
  }

  function Repeat<T>(x: T, n: nat): (r: seq<T>)
    ensures |r| == n && forall k :: 0 <= k < n ==> r[k] == x
  {
    seq(n, _ => x)
  }

  lemma DoubleCapped(b: int, p: nat)
    requires b >= 0 && p >= 1
    ensures Min(Min(2 * b, BackoffCeiling) * p, BackoffCeiling) == Min(b * (2 * p), BackoffCeiling)
  {
    assert b * (2 * p) == (2 * b) * p;
    if 2 * b >= BackoffCeiling {
      assert (2 * b) * p >= 2 * b;
      assert BackoffCeiling * p >= BackoffCeiling;
    }
  }

  /**
   Backoff growth: after `n` consecutive 429 answers the backoff is
   `min(b * 2^n, 60)`; so the wait before the `n`-th retry is
   `min(b * 2^(n-1), 60)`. Every retry requests the same page, and nothing is
   saved.
   */
  lemma {:induction false} BackoffGrowth(userId: string, target: nat, s: State, n: nat)
    requires Inv(s) && s.total < target
    decreases n
    ensures Run(userId, target, s, Repeat(Fetched(429, Null), n))
         == Trace(s.(backoff := Min(s.backoff * Pow2(n), BackoffCeiling)), [], [],
                  Repeat(RequestUrl(userId, s.cursor), n), 0, OutOfOutcomes)
  {
    var o := Fetched(429, Null);
    if n > 0 {
      var next := s.(backoff := Min(2 * s.backoff, BackoffCeiling));
      assert Step(s, o) == Next(next, NoEffects);
      assert Repeat(o, n)[1..] == Repeat(o, n - 1);
      BackoffGrowth(userId, target, next, n - 1);
      DoubleCapped(s.backoff, Pow2(n - 1));
      assert [RequestUrl(userId, s.cursor)] + Repeat(RequestUrl(userId, s.cursor), n - 1)
          == Repeat(RequestUrl(userId, s.cursor), n);
    } else {
      assert s.backoff * Pow2(0) == s.backoff;
    }
  }

  /** One non-200, non-429 answer: the same page is requested, the counter moves, and the run goes on from there. */
  lemma ErrorStep(userId: string, target: nat, s: State, status: int, outcomes: seq<Outcome>)
    requires Inv(s) && s.total < target && status != 200 && status != 429
    requires outcomes != [] && outcomes[0] == Fetched(status, Null)
    ensures var next := s.(errors := if s.errors < ErrorThreshold then s.errors + 1 else 0);
            var u := Run(userId, target, next, outcomes[1..]);
            Run(userId, target, s, outcomes)
            == Trace(u.final, u.saved, u.cursorWrites, [RequestUrl(userId, s.cursor)] + u.urls,
                     (if s.errors < ErrorThreshold then 0 else 1) + u.reloads, u.stop)
  {
    var next := s.(errors := if s.errors < ErrorThreshold then s.errors + 1 else 0);
    assert Step(s, outcomes[0]) == Next(next, Effects([], None, s.errors == ErrorThreshold));
  }

  /** The counter after `n` more errors from `e`: it runs 0, 1, ..., 5 and wraps. */
  function ErrorsAfter(e: int, n: nat): int
  {
    (e + n) % (ErrorThreshold + 1)
  }

  /** How many times the counter wraps (and the page is reloaded) in `n` more errors from `e`. */
  function ReloadsAfter(e: int, n: nat): int
  {
    (e + n) / (ErrorThreshold + 1)
  }

  lemma CountStep(e: nat, n: nat)
    requires e <= ErrorThreshold && n > 0
    ensures var e' := if e < ErrorThreshold then e + 1 else 0;
            && ErrorsAfter(e', n - 1) == ErrorsAfter(e, n)
            && (if e < ErrorThreshold then 0 else 1) + ReloadsAfter(e', n - 1) == ReloadsAfter(e, n)
  {
    if e == ErrorThreshold {
      assert e + n == (n - 1) + 1 * (ErrorThreshold + 1);
    }
  }

  /** What `n` consecutive errors from `s` do to a run. */
  predicate ErrorRun(userId: string, target: nat, s: State, status: int, n: nat)
  {
    var t := Run(userId, target, s, Repeat(Fetched(status, Null), n));
    && t.final == s.(errors := ErrorsAfter(s.errors, n))
    && t.reloads == ReloadsAfter(s.errors, n)
    && t.saved == [] && t.cursorWrites == []
    && t.urls == Repeat(RequestUrl(userId, s.cursor), n)
  }

  /**
   The error counter over `n` consecutive 403 (or other non-200, non-429)
   answers: it counts modulo 6, and every sixth error in a row causes a
   reload. The cursor, backoff and row count do not move.
   */
  lemma {:induction false} ErrorCycle(userId: string, target: nat, s: State, status: int, n: nat)
    requires Inv(s) && s.total < target && status != 200 && status != 429
    decreases n
    ensures var t := Run(userId, target, s, Repeat(Fetched(status, Null), n));
            && t.final == s.(errors := ErrorsAfter(s.errors, n))
            && t.reloads == ReloadsAfter(s.errors, n)
            && t.saved == [] && t.cursorWrites == []
            && t.urls == Repeat(RequestUrl(userId, s.cursor), n)
  {
    if n > 0 {
      var next := s.(errors := if s.errors < ErrorThreshold then s.errors + 1 else 0);
      ErrorCycle(userId, target, next, status, n - 1);
      ErrorCycleStep(userId, target, s, status, n);
    } else {
      assert Repeat(Fetched(status, Null), 0) == [];
      assert ErrorsAfter(s.errors, 0) == s.errors;
    }
  }

  lemma ErrorCycleStep(userId: string, target: nat, s: State, status: int, n: nat)
    requires Inv(s) && s.total < target && status != 200 && status != 429 && n > 0
    requires ErrorRun(userId, target, s.(errors := if s.errors < ErrorThreshold then s.errors + 1 else 0), status, n - 1)
    ensures ErrorRun(userId, target, s, status, n)
  {
    var o := Fetched(status, Null);
    var next := s.(errors := if s.errors < ErrorThreshold then s.errors + 1 else 0);
    var rest := Repeat(o, n - 1);
    assert Repeat(o, n)[1..] == rest;
    ErrorStep(userId, target, s, status, Repeat(o, n));
    ErrorCount(Run(userId, target, s, Repeat(o, n)), Run(userId, target, next, rest), s, n, RequestUrl(userId, s.cursor));
  }

  /** The bookkeeping of one step of `ErrorCycle`, on traces alone. */
  lemma ErrorCount(t: Trace, u: Trace, s: State, n: nat, url: string)
    requires Inv(s) && n > 0
    requires var next := s.(errors := if s.errors < ErrorThreshold then s.errors + 1 else 0);
             && t == Trace(u.final, u.saved, u.cursorWrites, [url] + u.urls,
                           (if s.errors < ErrorThreshold then 0 else 1) + u.reloads, u.stop)
             && u.final == next.(errors := ErrorsAfter(next.errors, n - 1))
             && u.reloads == ReloadsAfter(next.errors, n - 1)
             && u.saved == [] && u.cursorWrites == [] && u.urls == Repeat(url, n - 1)
    ensures && t.final == s.(errors := ErrorsAfter(s.errors, n))
            && t.reloads == ReloadsAfter(s.errors, n)
            && t.saved == [] && t.cursorWrites == []
            && t.urls == Repeat(url, n)
  {
    CountStep(s.errors, n);
    assert [url] + Repeat(url, n - 1) == Repeat(url, n);
  }

  /** Three forbidden answers and then a good page: errors back to 0 and backoff back to the floor. */
  lemma ForbiddenThenPage(userId: string, target: nat, s: State, items: seq<Item>)
    requires Inv(s) && s.errors == 0 && s.total < target
    requires items != [] && forall k :: 0 <= k < |items| ==> items[k].Post?
    ensures var o := Fetched(403, Null);
            var t := Run(userId, target, s, [o, o, o, Fetched(200, List(items))]);
            t.final.errors == 0 && t.final.backoff == BackoffFloor && t.final.cursor == LastId(items)
  {
    var o := Fetched(403, Null);
    var page := [Fetched(200, List(items))];
    PageResets(userId, target, s.(errors := 3), items);
    ThreeErrors(userId, target, s, page);
    ThreeThenOne(o, Fetched(200, List(items)));
  }

  /** Three 403s from a clean counter leave it at 3 and change nothing else. */
  lemma ThreeErrors(userId: string, target: nat, s: State, rest: seq<Outcome>)
    requires Inv(s) && s.errors == 0 && s.total < target
    ensures var o := Fetched(403, Null);
            Run(userId, target, s, [o] + ([o] + ([o] + rest))).final == Run(userId, target, s.(errors := 3), rest).final
  {
    var o := Fetched(403, Null);
    OneError(userId, target, s.(errors := 2), rest);
    OneError(userId, target, s.(errors := 1), [o] + rest);
    OneError(userId, target, s, [o] + ([o] + rest));
  }

  lemma ThreeThenOne<T>(x: T, y: T)
    ensures [x] + ([x] + ([x] + [y])) == [x, x, x, y]
  {
  }

  lemma OneError(userId: string, target: nat, s: State, rest: seq<Outcome>)
    requires Inv(s) && s.errors < ErrorThreshold && s.total < target
    ensures Run(userId, target, s, [Fetched(403, Null)] + rest).final
         == Run(userId, target, s.(errors := s.errors + 1), rest).final
  {
    assert Step(s, Fetched(403, Null)) == Next(s.(errors := s.errors + 1), NoEffects);
    assert ([Fetched(403, Null)] + rest)[0] == Fetched(403, Null);
    assert ([Fetched(403, Null)] + rest)[1..] == rest;
  }

  lemma PageResets(userId: string, target: nat, s: State, items: seq<Item>)
    requires Inv(s) && s.total < target
    requires items != [] && forall k :: 0 <= k < |items| ==> items[k].Post?
    ensures var f := Run(userId, target, s, [Fetched(200, List(items))]).final;
            f.errors == 0 && f.backoff == BackoffFloor && f.cursor == LastId(items)
  {
    var r := Step(s, Fetched(200, List(items)));
    assert r.Next? && r.state.errors == 0;
    assert [Fetched(200, List(items))][1..] == [];
  }

  /** One well-formed page below the target: its scan is saved and it was requested from the current cursor. */
  lemma OnePageRun(userId: string, target: nat, s: State, items: seq<Item>)
    requires Inv(s) && s.total < target
    requires items != [] && forall k :: 0 <= k < |items| ==> items[k].Post?
    ensures var t := Run(userId, target, s, [Fetched(200, List(items))]);
            && t.saved == ScanEntries(items, s.cursor).rows && t.urls == [RequestUrl(userId, s.cursor)]
            && t.cursorWrites == (if LastId(items) != [] then [LastId(items)] else [])
            && t.final.cursor == LastId(items)
  {
    var o := Fetched(200, List(items));
    PageStepExact(s, items);
    var r := Step(s, o);
    assert [o][1..] == [];
    var tail := Run(userId, target, r.state, []);
    assert tail.saved == [] && tail.urls == [];
    var t := Run(userId, target, s, [o]);
    assert t.saved == r.effects.saved + tail.saved && t.urls == [RequestUrl(userId, s.cursor)] + tail.urls;
    assert r.effects.saved + [] == r.effects.saved;
    assert t.cursorWrites == WritesOf(r.effects) + [] && t.final == r.state;
  }

  /** The iteration for a page of well-formed entries, in closed form. */
  lemma PageStepExact(s: State, items: seq<Item>)
    requires items != [] && forall k :: 0 <= k < |items| ==> items[k].Post?
    ensures var rows := ScanEntries(items, s.cursor).rows;
            Step(s, Fetched(200, List(items))) ==
              Next(State(LastId(items), BackoffFloor, 0, s.total + |rows|),
                   Effects(rows, if LastId(items) != [] then Some(LastId(items)) else None, false))
  {
  }

  /** A run below the target whose first iteration continues is that iteration's effects followed by the rest of the run. */
  lemma RunUnfold(userId: string, target: nat, s: State, outcomes: seq<Outcome>)
    requires s.total < target && outcomes != [] && Step(s, outcomes[0]).Next?
    ensures var e, t, u := Step(s, outcomes[0]).effects, Run(userId, target, s, outcomes),
                           Run(userId, target, Step(s, outcomes[0]).state, outcomes[1..]);
            && t.saved == e.saved + u.saved
            && t.cursorWrites == WritesOf(e) + u.cursorWrites
            && t.urls == [RequestUrl(userId, s.cursor)] + u.urls
            && t.final == u.final
  {
  }

  /**
   Two well-formed pages in a row, the first leaving the count below the
   target: both pages' rows are saved in page order, and the second request
   resumes from the first page's last id.
   */
  lemma TwoPagesRun(userId: string, target: nat, s: State, a: seq<Item>, b: seq<Item>)
    requires Inv(s)
    requires a != [] && forall k :: 0 <= k < |a| ==> a[k].Post?
    requires b != [] && forall k :: 0 <= k < |b| ==> b[k].Post?
    requires s.total + |ScanEntries(a, s.cursor).rows| < target
    ensures var t := Run(userId, target, s, [Fetched(200, List(a)), Fetched(200, List(b))]);
            && t.saved == ScanEntries(a, s.cursor).rows + ScanEntries(b, LastId(a)).rows
            && t.urls == [RequestUrl(userId, s.cursor), RequestUrl(userId, LastId(a))]
            && t.cursorWrites == (if LastId(a) != [] then [LastId(a)] else []) + (if LastId(b) != [] then [LastId(b)] else [])
            && t.final.cursor == LastId(b)
  {
    var o1, o2 := Fetched(200, List(a)), Fetched(200, List(b));
    PageStepExact(s, a);
    var r := Step(s, o1);
    assert Inv(r.state) && r.state.total < target;
    OnePageRun(userId, target, r.state, b);
    assert [o1, o2][0] == o1 && [o1, o2][1..] == [o2];
    RunUnfold(userId, target, s, [o1, o2]);
  }

  /** With a numeric account id, a request names a `max_id` exactly when the cursor is non-empty. */
  lemma UrlHasMaxIdIff(userId: string, cursor: string)
    requires '&' !in userId
    ensures Contains(RequestUrl(userId, cursor), "&max_id=") <==> cursor != []
  {
    var base := BaseUrl(userId);
    if cursor != [] {
      var url := RequestUrl(userId, cursor);
      assert OccursAt(url, "&max_id=", |base|);
    } else {
      assert '&' !in base by {
        forall i | 0 <= i < |base| ensures base[i] != '&' {
          var prefix := "https://truthsocial.com/api/v1/accounts/";
          if i < |prefix| {
            assert base[i] == prefix[i];
          } else if i < |prefix| + |userId| {
            assert base[i] == userId[i - |prefix|];
          } else {
            assert base[i] == "/statuses?limit=40"[i - |prefix| - |userId|];
          }
        }
      }
      MissingCharNotContained(base, "&max_id=", 0);
    }
  }

  /**
   An exception in the middle of a page (a malformed entry after a good one)
   still moves `max_id` past the good entries, yet saves none of them and
   writes no cursor: the next request skips those posts.
   */
  lemma MalformedEntryAdvancesCursor(s: State, id: string, content: string)
    ensures var r := Step(s, Fetched(200, List([Post(id, content), Malformed])));
            r == Next(s.(cursor := id), NoEffects)
  {
    var items := [Post(id, content), Malformed];
    var scan := ScanEntries(items, s.cursor);
    assert items[1..] == [Malformed];
    assert !scan.complete && scan.cursor == id;
  }
}

=== FILE: scenarios.dfy ===
/**
 Worked examples: what the model gives for concrete inputs.
 */
module Scenarios {
  import opened Text
  import opened Normalizer
  import opened Batch
  import opened ProgressStore

  /** Plain words: no markup, delimiter or line break, and no whitespace at the outer edge. */
  predicate PlainWord(w: string)
  {
    w != [] && '<' !in w && ',' !in w && '\n' !in w && '\r' !in w && !IsSpace(w[0]) && !IsSpace(w[|w| - 1])
  }

  /** A comma followed by a line break between two plain words becomes "; ". */
  lemma CommaNewlineBetweenWords(w1: string, w2: string)
    requires PlainWord(w1) && PlainWord(w2)
    ensures CleanHtml(w1 + ",\n" + w2) == w1 + "; " + w2
  {
    var raw := w1 + ",\n" + w2;
    var expected := w1 + "; " + w2;
    WordsHaveNoTag(w1, w2);
    NoTagUnchanged(raw);
    WordsNewline(w1, w2);
    WordsNoReturn(w1, w2);
    RemoveCharAbsent(w1 + ", " + w2, '\r');
    WordsComma(w1, w2);
    assert FlattenDelims(raw) == expected;
    assert expected[0] == w1[0] && expected[|expected| - 1] == w2[|w2| - 1];
    StripTrimmed(expected);
  }

  lemma WordsHaveNoTag(w1: string, w2: string)
    requires PlainWord(w1) && PlainWord(w2)
    ensures NoTag(w1 + ",\n" + w2)
  {
    var raw := w1 + ",\n" + w2;
    forall i | 0 <= i < |raw| ensures raw[i] != '<' {
      if i < |w1| { assert raw[i] == w1[i]; }
      else if i >= |w1| + 2 { assert raw[i] == w2[i - |w1| - 2]; }
    }
  }

  lemma WordsNewline(w1: string, w2: string)
    requires PlainWord(w1) && PlainWord(w2)
    ensures ReplaceChar(w1 + ",\n" + w2, '\n', ' ') == w1 + ", " + w2
  {
    var raw := w1 + ",\n" + w2;
    var v := ReplaceChar(raw, '\n', ' ');
    forall i | 0 <= i < |v| ensures v[i] == (w1 + ", " + w2)[i] {
      if i < |w1| { assert raw[i] == w1[i]; }
      else if i >= |w1| + 2 { assert raw[i] == w2[i - |w1| - 2]; }
    }
  }

  lemma WordsNoReturn(w1: string, w2: string)
    requires PlainWord(w1) && PlainWord(w2)
    ensures '\r' !in w1 + ", " + w2
  {
    var v := w1 + ", " + w2;
    forall i | 0 <= i < |v| ensures v[i] != '\r' {
      if i < |w1| { assert v[i] == w1[i]; }
      else if i >= |w1| + 2 { assert v[i] == w2[i - |w1| - 2]; }
    }
  }

  lemma WordsComma(w1: string, w2: string)
    requires PlainWord(w1) && PlainWord(w2)
    ensures ReplaceChar(w1 + ", " + w2, ',', ';') == w1 + "; " + w2
  {
    var v := w1 + ", " + w2;
    var t := ReplaceChar(v, ',', ';');
    forall i | 0 <= i < |t| ensures t[i] == (w1 + "; " + w2)[i] {
      if i < |w1| { assert v[i] == w1[i]; }
      else if i >= |w1| + 2 { assert v[i] == w2[i - |w1| - 2]; }
    }
  }

  /** The body "Hello,\nworld" is stored as the line "Trump,Hello; world". */
  lemma HelloWorldLine(body: string)
    requires body == "Hello,\nworld"
    ensures RenderRow(Row(Author, CleanHtml(body))) == "Trump,Hello; world"
  {
    var w1, w2 := HelloWorldWords(body);
    CommaNewlineBetweenWords(w1, w2);
    assert RenderRow(Row(Author, w1 + "; " + w2)) == "Trump," + w1 + "; " + w2;
  }

  lemma HelloWorldWords(body: string) returns (w1: string, w2: string)
    requires body == "Hello,\nworld"
    ensures w1 == "Hello" && w2 == "world" && body == w1 + ",\n" + w2
    ensures PlainWord(w1) && PlainWord(w2)
  {
    w1, w2 := body[..5], body[7..];
    assert body == body[..5] + body[5..7] + body[7..];
    HelloWorldPlain();
  }

  lemma HelloWorldPlain()
    ensures PlainWord("Hello") && PlainWord("world")
  {
    var h, w := "Hello", "world";
    assert forall i :: 0 <= i < |h| ==> h[i] in "Helo";
    assert forall i :: 0 <= i < |w| ==> w[i] in "world";
  }
}

=== FILE: session.dfy ===
/**
 One whole run of `run_resilient_scraper`: the cursor file is read first,
 the listener captures what the page loads while the operator passes the
 checkpoint, and once the wait loop ends (by detection or by timeout) the
 paginator takes over from the cursor read at startup, counting the
 listener's rows toward the target.
 */
module Session {
  import opened Wrappers
  import opened Text
  import opened Batch
  import opened ProgressStore
  import opened Gatekeeper
  import opened Listener
  import opened Paginator

  /** What a run meets from outside: the wait loop's polls, the responses the page loads, the paginator's fetch outcomes. */
  datatype World = World(polls: seq<Poll>, pageLoad: seq<Response>, outcomes: seq<Outcome>)

  /** The files after a run, how the wait ended, the listener's rows, and the paginator's trace (None while still waiting). */
  datatype Report = Report(disk: Disk, wait: WaitOutcome, captured: seq<Row>, trace: Option<Trace>)

  /** The files after the paginator's writes: its rows appended, and the last cursor it wrote, if any. */
  function ApplyTrace(d: Disk, t: Trace): (d': Disk)
    ensures d'.progress == d.progress + t.saved
    ensures t.cursorWrites == [] ==> d'.cursorFile == d.cursorFile
    ensures t.cursorWrites != [] ==> d'.cursorFile == Some(t.cursorWrites[|t.cursorWrites| - 1])
  {
    var appended := Append(d, t.saved);
    if t.cursorWrites == [] then appended else SaveCursor(appended, Last(t.cursorWrites))
  }

  function Scrape(userId: string, target: nat, d: Disk, w: World): (r: Report)
    ensures r.wait == AwaitTimeline(w.polls)
    // the listener's rows, and the paginator's run from the startup cursor with those rows counted
    ensures r.captured == Listen(d, w.pageLoad).1
    ensures r.trace.None? ==> r.disk == Listen(d, w.pageLoad).0
    ensures r.trace.Some? ==> r.trace.value == Run(userId, target, Start(d, |r.captured|), w.outcomes)
    ensures r.trace.Some? ==> r.disk == ApplyTrace(Listen(d, w.pageLoad).0, r.trace.value)
    ensures r.trace.None? <==> r.wait.StillWaiting?
    ensures AllClean(r.captured)
    ensures r.trace.None? ==> r.disk.progress == d.progress + r.captured
    ensures r.trace.Some? ==>
              && r.disk.progress == d.progress + r.captured + r.trace.value.saved
              && r.trace.value.final.total == |r.captured| + |r.trace.value.saved|
              && AllClean(r.trace.value.saved)
    // the first request resumes from the cursor file as it was at startup
    ensures r.trace.Some? && |r.captured| < target && w.outcomes != [] ==>
              r.trace.value.urls != [] && r.trace.value.urls[0] == RequestUrl(userId, LoadCursor(d))
    // the listener's rows alone can meet the target, and then no request is made
    ensures r.trace.Some? && |r.captured| >= target ==> r.trace.value.urls == []
  {
    var wait := AwaitTimeline(w.polls);
    var (listened, captured) := Listen(d, w.pageLoad);
    if wait.StillWaiting? then Report(listened, wait, captured, None)
    else
      var t := Run(userId, target, Start(d, |captured|), w.outcomes);
      ConcatAssoc(d.progress, captured, t.saved);
      Report(ApplyTrace(listened, t), wait, captured, Some(t))
  }

  /** Distinct cursors give distinct requests. */
  lemma RequestUrlInjective(userId: string, c1: string, c2: string)
    requires RequestUrl(userId, c1) == RequestUrl(userId, c2)
    ensures c1 == c2
  {
    var base := BaseUrl(userId);
    var tag := "&max_id=";
    if c1 != [] && c2 != [] {
      var u := RequestUrl(userId, c1);
      assert u == base + (tag + c1) == base + (tag + c2);
      assert c1 == (base + (tag + c1))[|base| + |tag|..];
    }
  }

  /**
   The paginator's first request ignores what the listener wrote to the
   cursor file: it uses the cursor read before the browser started, so a
   cursor the listener saves from the page load never shows up in it.
   */
  lemma ListenerCursorNotUsed(userId: string, target: nat, d: Disk, w: World, c: string)
    requires !AwaitTimeline(w.polls).StillWaiting? && w.outcomes != []
    requires |w.pageLoad| == 1 && HandleResponse(w.pageLoad[0]).cursorWrite == Some(c)
    requires |HandleResponse(w.pageLoad[0]).saved| < target && c != LoadCursor(d)
    ensures Listen(d, w.pageLoad).0.cursorFile == Some(c)
    ensures Scrape(userId, target, d, w).trace.value.urls[0] != RequestUrl(userId, c)
  {
    var r := Scrape(userId, target, d, w);
    var c0 := HandleResponse(w.pageLoad[0]);
    assert Listen(d, w.pageLoad) == (Persist(d, c0), c0.saved + []);
    if r.trace.value.urls[0] == RequestUrl(userId, c) {
      RequestUrlInjective(userId, LoadCursor(d), c);
    }
  }

  /**
   A token without edge whitespace, saved with any whitespace around it (a
   trailing newline, say), is read back as the token itself on restart.
   */
  lemma CursorFileRoundTrip(d: Disk, a: string, token: string, b: string)
    requires AllSpace(a) && AllSpace(b) && NoEdgeSpace(token)
    ensures LoadCursor(SaveCursor(d, a + token + b)) == token
  {
    StripUnique(a, token, b);
  }

  /** Rows do not depend on the cursor a batch starts from. */
  lemma {:induction false} RowsIgnoreCursor(items: seq<Item>, c1: string, c2: string)
    ensures ScanEntries(items, c1).rows == ScanEntries(items, c2).rows
    ensures ScanEntries(items, c1).complete == ScanEntries(items, c2).complete
  {
    if items != [] && items[0].Post? {
      ScanCons(items, c1);
      ScanCons(items, c2);
    }
  }

  /**
   A crash between appending a batch and writing the cursor: on restart the
   cursor file still names the page that was saved, so the same request is
   made, and if the server answers as before the batch is appended twice.
   */
  lemma CrashDuplicatesBatch(userId: string, d: Disk, s: State, items: seq<Item>)
    requires Inv(s) && s.cursor == LoadCursor(d)
    requires items != [] && forall k :: 0 <= k < |items| ==> items[k].Post?
    ensures var batch := Step(s, Fetched(200, List(items))).effects.saved;
            var crashed := Append(d, batch);
            var resumed := Start(crashed, 0);
            && RequestUrl(userId, resumed.cursor) == RequestUrl(userId, s.cursor)
            && Step(resumed, Fetched(200, List(items))).effects.saved == batch
            && Append(crashed, batch).progress == d.progress + batch + batch
  {
    RowsIgnoreCursor(items, s.cursor, LoadCursor(d));
  }
}

=== FILE: store.dfy ===
/**
 The two files a run persists: the progress file, one `author,text` line per
 row appended, and the cursor file holding the last saved pagination cursor.
 */
module ProgressStore {
  import opened Wrappers
  import opened Text
  import opened Batch

  /** The persisted files: rows of the progress file, and the cursor file's content if it exists. */
  datatype Disk = Disk(progress: seq<Row>, cursorFile: Option<string>)

  /** Appending a batch to the progress file. */
  function Append(d: Disk, rows: seq<Row>): Disk
  {
    d.(progress := d.progress + rows)
  }

  /** Overwriting the cursor file. */
  function SaveCursor(d: Disk, token: string): Disk
  {
    d.(cursorFile := Some(token))
  }

  /** The cursor a run starts from: the cursor file's content stripped, or none ("") without the file. */
  function LoadCursor(d: Disk): (c: string)
    ensures NoEdgeSpace(c)
    ensures d.cursorFile.None? ==> c == []
    // the file's content with only surrounding whitespace cut off
    ensures d.cursorFile.Some? ==>
              StripWindow(d.cursorFile.value, c, |d.cursorFile.value| - |TrimLeft(d.cursorFile.value)|)
  {
    match d.cursorFile
    case None => []
    case Some(text) => Strip(text)
  }

  /** A row as one line of the progress file: two comma-separated fields, no quoting. */
  function RenderRow(row: Row): string
  {
    row.author + "," + row.text
  }

  /** Splits a progress-file line at its first ','. */
  function ParseLine(line: string): Row
  {
    var k := IndexOf(line, ',');
    if k == |line| then Row(line, []) else Row(line[..k], line[k + 1..])
  }

  function RenderRows(rows: seq<Row>): (lines: seq<string>)
    ensures |lines| == |rows|
  {
    seq(|rows|, i requires 0 <= i < |rows| => RenderRow(rows[i]))
  }

  /** The progress file's text. */
  function ProgressText(d: Disk): string
  {
    JoinLines(RenderRows(d.progress))
  }

  /** A captured row renders as a single line with exactly one ',': the field separator. */
  lemma RenderRowFields(row: Row)
    requires CleanRow(row)
    ensures '\n' !in RenderRow(row)
    ensures Count(RenderRow(row), ',') == 1
  {
    CountAbsent(Author, ',');
    CountAbsent(row.text, ',');
    CountAppend(Author, ",", ',');
    CountAppend(Author + ",", row.text, ',');
  }

  /** A line parses back into the row it was rendered from. */
  lemma ParseRenderRow(row: Row)
    requires CleanRow(row)
    ensures ParseLine(RenderRow(row)) == row
  {
    var line := RenderRow(row);
    assert line[|Author|] == ',';
    assert forall m :: 0 <= m < |Author| ==> line[m] == Author[m];
    assert IndexOf(line, ',') == |Author|;
    assert line[..|Author|] == Author;
    assert line[|Author| + 1..] == row.text;
  }

  /** Reading the progress file back, line by line, yields every row in the order appended. */
  lemma ProgressRoundTrip(d: Disk)
    requires AllClean(d.progress)
    ensures |SplitLines(ProgressText(d))| == |d.progress|
    ensures forall i :: 0 <= i < |d.progress| ==> ParseLine(SplitLines(ProgressText(d))[i]) == d.progress[i]
  {
    var lines := RenderRows(d.progress);
    forall i | 0 <= i < |lines| ensures '\n' !in lines[i] {
      RenderRowFields(d.progress[i]);
    }
    SplitJoinLines(lines);
    forall i | 0 <= i < |d.progress| ensures ParseLine(lines[i]) == d.progress[i] {
      ParseRenderRow(d.progress[i]);
    }
  }

  /** The progress file has one line per appended row. */
  lemma ProgressLineCount(d: Disk)
    requires AllClean(d.progress)
    ensures Count(ProgressText(d), '\n') == |d.progress|
  {
    var lines := RenderRows(d.progress);
    forall i | 0 <= i < |lines| ensures '\n' !in lines[i] {
      RenderRowFields(d.progress[i]);
    }
    JoinLinesCount(lines);
  }
}

=== FILE: text.dfy ===
/** The small option type shared by the model. */
module Wrappers {

  datatype Option<+T> = None | Some(value: T)
}

/**
 Character-level string operations of Python's `str` that the scripts rely on:
 `replace` with one-character arguments, `strip()` without arguments, the
 substring test `sub in s`, and the "one record per line" text layout.
 */
module Text {

  /** Number of occurrences of `c` in `s`. */
  function Count(s: string, c: char): nat
  {
    if s == [] then 0 else (if s[0] == c then 1 else 0) + Count(s[1..], c)
  }

  lemma {:induction false} CountAppend(a: string, b: string, c: char)
    ensures Count(a + b, c) == Count(a, c) + Count(b, c)
  {
    if a == [] {
      assert a + b == b;
    } else {
      assert (a + b)[1..] == a[1..] + b;
      CountAppend(a[1..], b, c);
    }
  }

  lemma {:induction false} CountAbsent(s: string, c: char)
    requires c !in s
    ensures Count(s, c) == 0
  {
    if s != [] {
      assert c !in s[1..];
      CountAbsent(s[1..], c);
    }
  }

  /** `sub` starts at index `i` of `s`. */
  predicate OccursAt(s: string, sub: string, i: int)
  {
    0 <= i && i + |sub| <= |s| && s[i..i + |sub|] == sub
  }

  /** Python's `sub in s`. */
  predicate Contains(s: string, sub: string)
  {
    exists i | 0 <= i <= |s| - |sub| :: OccursAt(s, sub, i)
  }

  /** A text lacking one of the characters of `sub` does not contain `sub`. */
  lemma MissingCharNotContained(s: string, sub: string, k: int)
    requires 0 <= k < |sub| && sub[k] !in s
    ensures !Contains(s, sub)
  {
    forall i | 0 <= i <= |s| - |sub| ensures !OccursAt(s, sub, i) {
      assert s[i..i + |sub|][k] == s[i + k];
    }
  }

  /** Python's `s.replace(a, b)` for single characters `a` and `b`. */
  function ReplaceChar(s: string, a: char, b: char): (r: string)
    ensures |r| == |s|
    ensures forall i :: 0 <= i < |s| ==> r[i] == (if s[i] == a then b else s[i])
  {
    if s == [] then [] else [if s[0] == a then b else s[0]] + ReplaceChar(s[1..], a, b)
  }

  lemma {:induction false} ReplaceCharAppend(a: string, b: string, x: char, y: char)
    ensures ReplaceChar(a + b, x, y) == ReplaceChar(a, x, y) + ReplaceChar(b, x, y)
  {
    var r := ReplaceChar(a + b, x, y);
    assert forall i :: 0 <= i < |a| ==> (a + b)[i] == a[i];
    assert forall i :: |a| <= i < |a + b| ==> (a + b)[i] == b[i - |a|];
  }

  /** Python's `s.replace(c, '')`: every `c` deleted, nothing else touched. */
  function RemoveChar(s: string, c: char): (r: string)
    ensures c !in r
    ensures |r| <= |s|
    ensures forall x :: x != c ==> (x in r <==> x in s)
  {
    if s == [] then [] else (if s[0] == c then [] else [s[0]]) + RemoveChar(s[1..], c)
  }

  lemma {:induction false} RemoveCharAppend(a: string, b: string, c: char)
    ensures RemoveChar(a + b, c) == RemoveChar(a, c) + RemoveChar(b, c)
  {
    if a == [] {
      assert a + b == b;
    } else {
      var head := if a[0] == c then [] else [a[0]];
      assert (a + b)[0] == a[0] && (a + b)[1..] == a[1..] + b;
      assert RemoveChar(a + b, c) == head + RemoveChar(a[1..] + b, c);
      RemoveCharAppend(a[1..], b, c);
      assert head + (RemoveChar(a[1..], c) + RemoveChar(b, c)) == (head + RemoveChar(a[1..], c)) + RemoveChar(b, c);
    }
  }

  lemma {:induction false} RemoveCharAbsent(s: string, c: char)
    requires c !in s
    ensures RemoveChar(s, c) == s
  {
    if s != [] {
      assert c !in s[1..];
      RemoveCharAbsent(s[1..], c);
      assert s == [s[0]] + s[1..];
    }
  }

  /**
   Python's `str.isspace()` for one character; these are exactly the
   characters `str.strip()` without arguments removes.
   */
  predicate IsSpace(ch: char)
  {
    || ch == ' '
    || '\t' <= ch <= '\r'
    || '\U{1C}' <= ch <= '\U{1F}'
    || ch == '\U{85}'
    || ch == '\U{A0}'
    || ch == '\U{1680}'
    || '\U{2000}' <= ch <= '\U{200A}'
    || ch == '\U{2028}'
    || ch == '\U{2029}'
    || ch == '\U{202F}'
    || ch == '\U{205F}'
    || ch == '\U{3000}'
  }

  predicate AllSpace(s: string)
  {
    forall k :: 0 <= k < |s| ==> IsSpace(s[k])
  }

  /** Neither the first nor the last character is whitespace. */
  predicate NoEdgeSpace(s: string)
  {
    s == [] || (!IsSpace(s[0]) && !IsSpace(s[|s| - 1]))
  }

  function TrimLeft(s: string): (r: string)
    ensures |r| <= |s|
    ensures r != [] ==> !IsSpace(r[0])
  {
    if s != [] && IsSpace(s[0]) then TrimLeft(s[1..]) else s
  }

  function TrimRight(s: string): (r: string)
    ensures |r| <= |s|
    ensures r != [] ==> !IsSpace(r[|r| - 1])
  {
    if s != [] && IsSpace(s[|s| - 1]) then TrimRight(s[..|s| - 1]) else s
  }

  /** `TrimLeft` drops a whitespace prefix and keeps the rest. */
  lemma {:induction false} TrimLeftSuffix(s: string)
    ensures TrimLeft(s) == s[|s| - |TrimLeft(s)|..]
    ensures AllSpace(s[..|s| - |TrimLeft(s)|])
  {
    if s != [] && IsSpace(s[0]) {
      TrimLeftSuffix(s[1..]);
      var n := |s| - |TrimLeft(s)|;
      assert s[1..][..n - 1] == s[1..n];
      assert s[1..][n - 1..] == s[n..];
    }
  }

  /** `TrimRight` drops a whitespace suffix and keeps the rest. */
  lemma {:induction false} TrimRightPrefix(s: string)
    ensures TrimRight(s) == s[..|TrimRight(s)|]
    ensures AllSpace(s[|TrimRight(s)|..])
  {
    if s != [] && IsSpace(s[|s| - 1]) {
      var t := s[..|s| - 1];
      TrimRightPrefix(t);
      var n := |TrimRight(s)|;
      assert t[..n] == s[..n];
      assert s[n..] == t[n..] + [s[|s| - 1]];
    }
  }

  /** `r` is the window of `s` starting at `i`, with only whitespace around it. */
  predicate StripWindow(s: string, r: string, i: int)
  {
    0 <= i && i + |r| <= |s| && r == s[i..i + |r|] && AllSpace(s[..i]) && AllSpace(s[i + |r|..])
  }

  /**
   Python's `s.strip()`: the window of `s` that starts at its first
   non-whitespace character and ends at its last, with nothing but whitespace
   cut on either side.
   */
  function Strip(s: string): (r: string)
    ensures NoEdgeSpace(r)
    ensures |r| <= |s|
    ensures StripWindow(s, r, |s| - |TrimLeft(s)|)
  {
    var l := TrimLeft(s);
    TrimLeftSuffix(s);
    TrimRightPrefix(l);
    WindowSlices(s, l, TrimRight(l), |s| - |l|);
    TrimRight(l)
  }

  lemma WindowSlices(s: string, l: string, r: string, i: int)
    requires 0 <= i <= |s| && l == s[i..] && |r| <= |l| && r == l[..|r|]
    ensures r == s[i..i + |r|] && s[i + |r|..] == l[|r|..]
  {
  }

  /** `strip()` only shortens: its result is no longer and holds no new character. */
  lemma StripShape(s: string)
    ensures |Strip(s)| <= |s|
    ensures forall c :: c in Strip(s) ==> c in s
  {
    var r := Strip(s);
    var i := |s| - |TrimLeft(s)|;
    forall c | c in r ensures c in s {
      var k :| 0 <= k < |r| && r[k] == c;
      assert s[i + k] == c;
    }
  }

  /**
   The whitespace around a text is what `strip()` removes: any decomposition
   of `s` into whitespace, an edge-trimmed middle and whitespace yields that
   middle.
   */
  lemma {:induction false} StripUnique(a: string, m: string, b: string)
    requires AllSpace(a) && AllSpace(b) && NoEdgeSpace(m)
    ensures Strip(a + m + b) == m
  {
    if m == [] {
      assert a + m + b == (a + b) + [];
      assert AllSpace(a + b) by {
        forall k | 0 <= k < |a + b| ensures IsSpace((a + b)[k]) {
          if k < |a| { assert (a + b)[k] == a[k]; } else { assert (a + b)[k] == b[k - |a|]; }
        }
      }
      TrimLeftSpaces(a + b, []);
    } else {
      assert a + m + b == a + (m + b);
      TrimLeftSpaces(a, m + b);
      TrimRightSpaces(m, b);
    }
  }

  lemma {:induction false} TrimLeftSpaces(a: string, t: string)
    requires AllSpace(a) && (t == [] || !IsSpace(t[0]))
    ensures TrimLeft(a + t) == t
  {
    if a != [] {
      assert (a + t)[1..] == a[1..] + t;
      TrimLeftSpaces(a[1..], t);
    } else {
      assert a + t == t;
    }
  }

  lemma {:induction false} TrimRightSpaces(t: string, b: string)
    requires AllSpace(b) && (t == [] || !IsSpace(t[|t| - 1]))
    ensures TrimRight(t + b) == t
  {
    if b != [] {
      assert (t + b)[..|t + b| - 1] == t + b[..|b| - 1];
      TrimRightSpaces(t, b[..|b| - 1]);
    } else {
      assert t + b == t;
    }
  }

  /** Text already free of edge whitespace is a fixed point of `strip()`. */
  lemma StripTrimmed(s: string)
    requires NoEdgeSpace(s)
    ensures Strip(s) == s
  {
    StripUnique([], s, []);
    assert [] + s + [] == s;
  }

  /** Writes every line followed by one '\n', in order. */
  function JoinLines(lines: seq<string>): string
  {
    if lines == [] then [] else lines[0] + "\n" + JoinLines(lines[1..])
  }

  /** Position of the first `c` in `s`, or `|s|` when there is none. */
  function IndexOf(s: string, c: char): (k: nat)
    ensures k <= |s|
    ensures k < |s| ==> s[k] == c
    ensures forall m :: 0 <= m < k ==> s[m] != c
  {
    if s == [] then 0 else if s[0] == c then 0 else 1 + IndexOf(s[1..], c)
  }

  /** Cuts text at every '\n'; a last piece without a terminator still counts as a line. */
  function SplitLines(s: string): seq<string>
    decreases |s|
  {
    if s == [] then []
    else
      var k := IndexOf(s, '\n');
      if k == |s| then [s] else [s[..k]] + SplitLines(s[k + 1..])
  }

  predicate NoNewlines(lines: seq<string>)
  {
    forall i :: 0 <= i < |lines| ==> '\n' !in lines[i]
  }

  /** Reading the written text back line by line yields the lines that were written. */
  lemma {:induction false} SplitJoinLines(lines: seq<string>)
    requires NoNewlines(lines)
    ensures SplitLines(JoinLines(lines)) == lines
  {
    if lines != [] {
      var l := lines[0];
      var rest := JoinLines(lines[1..]);
      var text := JoinLines(lines);
      assert text == l + ("\n" + rest);
      assert text[|l|] == '\n';
      assert forall m :: 0 <= m < |l| ==> text[m] == l[m];
      assert IndexOf(text, '\n') == |l|;
      assert text[..|l|] == l;
      assert text[|l| + 1..] == rest;
      assert NoNewlines(lines[1..]) by {
        forall i | 0 <= i < |lines[1..]| ensures '\n' !in lines[1..][i] {
          assert lines[1..][i] == lines[i + 1];
        }
      }
      SplitJoinLines(lines[1..]);
      assert lines == [l] + lines[1..];
    }
  }

  /** The written text holds exactly one '\n' per line. */
  lemma {:induction false} JoinLinesCount(lines: seq<string>)
    requires NoNewlines(lines)
    ensures Count(JoinLines(lines), '\n') == |lines|
  {
    if lines != [] {
      var rest := JoinLines(lines[1..]);
      assert JoinLines(lines) == lines[0] + ("\n" + rest);
      CountAppend(lines[0], "\n" + rest, '\n');
      CountAppend("\n", rest, '\n');
      CountAbsent(lines[0], '\n');
      assert NoNewlines(lines[1..]) by {
        forall i | 0 <= i < |lines[1..]| ensures '\n' !in lines[1..][i] {
          assert lines[1..][i] == lines[i + 1];
        }
      }
      JoinLinesCount(lines[1..]);
    }
  }
}
